=== FILE: README.md ===
# prefab-gateway in Dafny

A model of the decision logic of the prefab gateway. The gateway is an HTTP
service that runs functions of deployed "prefabs" on behalf of
authenticated users. The model covers these parts:

- **The run pipeline** (`POST /v1/run`). Each call of a batch goes through
  these steps in order:
  1. spec lookup in the spec cache;
  2. function resolution;
  3. input validation against the manifest;
  4. the read check on `InputFile` inputs in the access-control ledger;
  5. secret resolution from the vault;
  6. the downstream invocation;
  7. the ownership grants for `OutputFile` outputs.

  An `HTTPException` ends the whole batch. Any other exception turns into
  a `FAILED` result and the batch goes on.
- **The in-memory services.** These are the access-control ledger, the
  secret vault and the spec cache.
- **Authentication.** This covers how JWT claims become a `User`, and the
  scope guard.
- **The spec, secrets and webhook endpoints.** Webhook ingestion is
  idempotent per event id, and a failed event is retried.
- **The file handler.** It covers s3:// URL parsing, the local and uploaded
  file names, input and output substitution, job workspaces, and the
  periodic sweep of expired workspaces with its disk-usage classification.
- **The database rows and unique indexes.** These are the rows the
  webhook code relies on.

The code is organised one module per source file:

| Module | Covers |
|---|---|
| `Wrappers` | `Option` and `Result` |
| `Json` | JSON values with Python truthiness, `isinstance` and set-hash identity |
| `Text` | `str` helpers |
| `Manifest` | the spec shape |
| `Records` | the database rows |
| `Acl`, `Vault`, `SpecCache` | the three in-memory services |
| `Run` | the run pipeline |
| `Webhooks` | webhook ingestion |
| `FileHandler` | the file handler |
| `Auth` | authentication and the scope guard |
| `Prefabs`, `SecretsRouter` | the spec and secrets endpoints |

The model leaves out I/O: every outside effect is a parameter. The
downstream HTTP reply, the HMAC, the JSON decoder, the JWT decoder, S3
transfers, file-system facts, the clock and fresh UUIDs are all supplied by
the caller.

Three facts about the code shape the model:

- A downstream failure raises `HTTPException(503)`, so it aborts the whole
  batch; it does not fail just that call.
- The endpoints are modelled as using the in-memory service instances
  created in `services/vault_service.py`, `services/acl_service.py` and
  `services/spec_cache_service.py`, as `app/main.py` and the webhook router
  do. As shipped, the run, prefab and secret routers import the submodules
  of those names instead (see "## Findings" and "## Left out"). The vault
  instance is an in-memory map with hard deletion and no encryption.
- The spec cache is modelled in its in-memory mode.

## Model

| member | source | states |
|---|---|---|
| Records.EnumerationsComplete | db/models.py:12-25 | The secret status has exactly three members and the deployment status exactly five, and their stored values are pairwise distinct. |
| Records.NewUserSecret | db/models.py:28-49 | A fresh secret row is active, has no expiry, last use or encryption key id, and sits under its (user, prefab, name) index value. |
| Records.NewPrefabSpecRow | db/models.py:55-80 | A fresh spec row is pending, never called, never deployed, has no service URL, and sits under its (prefab, version) index value. |
| Records.NewWebhookEvent | db/models.py:122-144 | A fresh event row is unprocessed, with no retries, no processing time and no error, and keeps its id, payload and signature. |
| Records.Insert | db/models.py:127 | An insert is refused exactly when the unique index value is taken. Otherwise it adds exactly that row, keeps every other row and keeps the table consistent. |
| Records.UniqueIndex | db/models.py:49 | In a consistent table, two rows with the same index value are the same row. |
| Acl.CanRead | services/acl_service.py:37-38 | A user may read exactly the resources in their set. |
| Acl.CanWrite | services/acl_service.py:61 | A user may write exactly what they may read. |
| Acl.GrantOwnership | services/acl_service.py:73-76 | The user's set grows by exactly the resource, and no other user's set changes. |
| Acl.RevokeAccess | services/acl_service.py:90-94 | Answers true exactly when the user held the resource. It removes exactly that resource and changes nothing when the user did not hold it. |
| Acl.ListUserFiles | services/acl_service.py:106 | The listing holds exactly the resources the user can read, and is empty for an unknown user. |
| Acl.GrantThenRead | services/acl_service.py:73-76 | After a grant the owner can read the resource, and other users' rights are unchanged. |
| Acl.GrantIdempotent | services/acl_service.py:73-76 | Granting twice equals granting once. |
| Acl.RevokeThenNoRead | services/acl_service.py:90-94 | After a revoke the resource is unreadable, and a second revoke answers false and changes nothing. |
| Acl.GrantRevokeRoundTrip | services/acl_service.py:73-94 | Granting and then revoking a resource the user did not hold restores every user's rights. |
| Vault.StoreSecret | services/vault_service.py:42-43 | Upsert: the key holds the new value and all other keys keep theirs. |
| Vault.GetSecret | services/vault_service.py:63-71 | Absent exactly when the key was never stored. Otherwise it answers the stored value, an empty string included. |
| Vault.DeleteSecret | services/vault_service.py:90-95 | Answers true exactly when the key was present. The key is removed and the other entries are unchanged. |
| Vault.ListSecrets | services/vault_service.py:112-116 | A (prefab, name) pair is listed exactly when the user has that secret and the pair passes the optional prefab filter. |
| Vault.GetAfterStore | services/vault_service.py:42-71 | Reading after a store gives the stored value, and reads of other keys are unaffected. |
| Vault.StoreOverwrites | services/vault_service.py:42-43 | A second store replaces the first. |
| Vault.DeleteThenAbsent | services/vault_service.py:90-95 | After a delete the secret is absent, and a second delete answers false. |
| Vault.ListIgnoresValues | services/vault_service.py:112-116 | The listing depends on which keys exist, never on values. |
| SpecCache.MakeKey | services/spec_cache_service.py:51-53 | The key is "spec:", then the prefab id, then ':', then the version, at fixed positions. |
| SpecCache.GetSpec | services/spec_cache_service.py:66-81 | Finds a spec exactly when the key is present with a non-empty document, and then answers that document. |
| SpecCache.SetSpec | services/spec_cache_service.py:106-119 | Always answers true. It stores the document under its key and keeps the other keys. |
| SpecCache.DeleteSpec | services/spec_cache_service.py:136-149 | Answers true exactly when the key was present. It removes only that key. |
| SpecCache.GetAfterSet | services/spec_cache_service.py:66-119 | Reading after a write gives the written document, or nothing when the document is empty. |
| SpecCache.GetAfterDelete | services/spec_cache_service.py:136-149 | After a delete the read answers nothing, and a second delete answers false. |
| SpecCache.SetLeavesOthers | services/spec_cache_service.py:106-111 | A write leaves the reads of every other key unchanged. |
| SpecCache.KeyCollision | services/spec_cache_service.py:51-53 | ("a:b", "c") and ("a", "b:c") share a key, so a write to one is read back through the other. |
| SpecCache.KeyInjective | services/spec_cache_service.py:51-53 | For prefab ids without ':', equal keys mean equal (prefab, version). |
| Run.FirstFailure | app/routers/run.py:146-175 | The scan finds nothing exactly when every element passes. Otherwise it answers the failure of the first failing element. |
| Run.FindFunction | app/routers/run.py:65-76 | Answers the index of the first function with the requested name, and nothing exactly when no function has that name. |
| Run.ValidateInputs | app/routers/run.py:144-175 | Passes exactly when every parameter passes. Otherwise it raises 422 with the error of the first failing parameter. |
| Run.ParamErrorCases | app/routers/run.py:147-170 | A parameter fails exactly when it is required (the default) and missing, or present with a listed type that its value is not an instance of. |
| Run.BoolIsInteger | app/routers/run.py:161-170 | A boolean passes "integer" and "number", and an integer fails "boolean". |
| Run.ValidationIgnoresUndeclared | app/routers/run.py:144-175 | Adding an input key that no parameter declares does not change the validation outcome. |
| Run.FileParamStop | app/routers/run.py:185-197 | Only a declared `InputFile` present in the inputs is checked. An unhashable value raises `TypeError`, which fails the call. A hashable one passes exactly when the user can read it, and otherwise aborts with `PermissionDenied` for that value. |
| Run.CheckInputFilePermissions | app/routers/run.py:185-197 | Passes exactly when every declared `InputFile` input that is present is hashable and readable by the user. Otherwise the stop is that of the first failing parameter in declaration order, and an abort is a 403. |
| Run.ResolveSecrets | app/routers/run.py:207-227 | Fails with 400 exactly when some required secret is unstored, and then at the first such secret. Otherwise it maps exactly the declared secrets stored non-empty to their vault values. |
| Run.InvocationUrl | app/routers/run.py:239-240 | The URL is "http://", then the prefab id, the namespace and the domain suffix joined by dots, then "/invoke/" and the function name. |
| Run.UrlIgnoresVersion | app/routers/run.py:239-240 | The URL is the same for every version. |
| Run.UrlSeparatesTargets | app/routers/run.py:239-240 | For dot-free prefab ids and namespaces, equal URLs have the same prefab id, namespace and domain suffix: different prefabs never share an endpoint. |
| Run.DownstreamPayload | app/routers/run.py:93-96 | The payload has exactly the keys "inputs" and "_secrets", holding the call's inputs and the resolved secrets. |
| Run.Invoke | app/routers/run.py:244-270 | Succeeds exactly when the service answered, with that answer. Every failure becomes 503. |
| Run.OutputField | app/routers/run.py:284-285 | On an object output, membership and lookup are the dict's. A found field implies the output is an object. |
| Run.HandleOutputFiles | app/routers/run.py:280-287 | Other users' rights are unchanged and the user's rights only grow. A non-object output grants nothing. On an object it raises nothing exactly when every present `OutputFile` value is hashable, and then the user gains exactly those values. |
| Run.SuccessResult | models/responses.py:15-21 | The result is SUCCESS exactly when the output is an object or null; otherwise it is a validation failure. |
| Run.RunFunction | app/routers/run.py:78-126 | A validation error (422), an unreadable input file (403), a missing secret (400) and a downstream failure (503) abort the batch with the ledger unchanged. An unhashable input file, an output-file grant that raises and an output pydantic refuses end the call as `FAILED`. An answered call keeps the grants `HandleOutputFiles` made, and other users' rights never change. |
| Run.RunCall | app/routers/run.py:55-126 | Other users' rights are unchanged and the user's rights only grow. A missing spec aborts with 404 and no change, and a 404 happens exactly when the spec or the function does not resolve. A resolved call runs `RunFunction` on its function. A SUCCESS implies that validation, the permission check and secret resolution all passed. |
| Run.Batch | app/routers/run.py:52-126 | For any loop body, a finished batch has exactly one result per call. |
| Run.BatchKeepsOthers | app/routers/run.py:52-126 | A batch whose loop body leaves other users' rights alone leaves them alone as well. |
| Run.CallStep | app/routers/run.py:55-114 | The loop body of a run changes no user's rights but the caller's. |
| Run.RunCalls | app/routers/run.py:52-126 | A finished batch has one result per call, and no other user's rights change. |
| Run.OverallStatus | app/routers/run.py:129 | "COMPLETED" exactly when every result is SUCCESS, and "PARTIAL_SUCCESS" otherwise. |
| Run.RunPrefabs | app/routers/run.py:46-135 | The response carries the job id and one result per call, and it is "COMPLETED" exactly when all calls succeeded. An empty batch answers COMPLETED with no results. |
| Run.BatchSplit | app/routers/run.py:52-126 | A batch is its first part followed by its second part, run from the ledger the first part left. An abort in either part aborts the whole batch. |
| Run.ResultsInCallOrder | app/routers/run.py:52-126 | The i-th result is what the loop body produced for the i-th call after its predecessors, so a failed call does not stop later calls. |
| Run.AbortIsFirstAbort | app/routers/run.py:117-119 | An aborted batch carries the error of the first call whose step aborted, and every earlier call completed. |
| Run.PermissionFailureSkipsDownstream | app/routers/run.py:79-108 | A call that fails the read check never consults the downstream service and changes no rights. |
| Run.ShippedStep | app/routers/run.py:54-126 | For every ledger and call, the shipped loop body leaves the ledger as it is and completes the call FAILED, with no output and an `AttributeError` for the missing `get_spec`. |
| Run.ShippedBatch | app/routers/run.py:54-126 | With the module imported in place of the instance, the loop fails every call with `AttributeError` and never touches the ledger. The loop body as shipped is `Run.ShippedStep`, which answers every call with the error `Run.NoGetSpec`: module 'services.spec_cache_service' has no attribute 'get_spec'. |
| Run.ShippedRunPrefabs | app/routers/run.py:12-135 | As shipped, every call ends FAILED with `AttributeError` before any check, downstream call or grant. The ledger is unchanged, and any non-empty batch answers PARTIAL_SUCCESS. |
| Run.ShippedRunDiffers | app/routers/run.py:12-135 | A call that the intended pipeline completes with SUCCESS makes the intended batch COMPLETED, while the shipped batch answers PARTIAL_SUCCESS with that call FAILED. |
| Run.SuccessfulCall | app/routers/run.py:79-114 | With all checks passing and an object answer whose `OutputFile` values are hashable, the call succeeds with that answer, and the user gains exactly those values. |
| Webhooks.VerifySignature | app/routers/webhooks.py:33-44 | An empty signature never verifies. A non-ASCII signature makes `compare_digest` raise. Any other signature verifies exactly when it equals the HMAC of the body. |
| Webhooks.ExtractIds | app/routers/webhooks.py:96-107 | A non-object body is an internal error. On an object, 400 happens exactly when some identifying field is falsy. Success yields the four non-empty string fields. |
| Webhooks.UpdateFor | app/routers/webhooks.py:147-180 | Exactly the three deployment event types ask for a status change. The change is for the event's (prefab, version) with the mapped status, and only a success passes the service URL. |
| Webhooks.MarkProcessedAsWritten | app/routers/webhooks.py:183-184 | The row becomes processed with no processing time, and its id, retries and error are kept. |
| Webhooks.MarkProcessed | app/routers/webhooks.py:183-185 | The row becomes processed with the processing time recorded, and the rest is kept. |
| Webhooks.Mark | app/routers/webhooks.py:183-184 | A marked row is processed, carrying no time as written and the processing time when corrected. |
| Webhooks.RecordFailure | app/routers/webhooks.py:195-199 | The error is recorded and the retry count grows by one. The processed flag and processing time are kept. |
| Webhooks.Process | app/routers/webhooks.py:146-204 | It succeeds exactly when the status update did not raise, and then marks the event processed with the given marking; otherwise it records the failure with a 500. Other rows are unchanged. |
| Webhooks.SignatureError | app/routers/webhooks.py:82-86 | No secret means no check. Otherwise an unequal signature is a 401 and a non-ASCII one the `compare_digest` internal error, and nothing else is refused. |
| Webhooks.Stored | app/routers/webhooks.py:118-143 | A known event is kept as it is, and a new one is inserted from its first receipt, keeping the unique index consistent. |
| Webhooks.Dispatch | app/routers/webhooks.py:96-204 | A payload without its identifying fields gets the error of `ExtractIds` (400 for a missing or falsy field) and changes nothing. A redelivery of a processed event answers already_processed and changes nothing. Errors before processing, and redeliveries of processed events, change nothing. No row disappears and processed rows stay as they are. The unique index stays consistent. A processed answer leaves the row processed, with a time only under the corrected marking. |
| Webhooks.Handle | app/routers/webhooks.py:79-204 | 401 exactly when a secret is set and the signature compares unequal; a non-ASCII signature is a 500 with no change. After the signature check, an undecodable body is a 400 (`InvalidJson`) with no change, and a decoded one is handled by Webhooks.Dispatch. Errors before processing, and redeliveries of processed events, change nothing. No row disappears and processed rows stay as they are. The unique index stays consistent. A processed answer leaves the row processed, with a time only under the corrected marking. |
| Webhooks.Receive | app/routers/webhooks.py:79-204 | The handler as written: a processed answer leaves the row processed with no processing time, and 401 happens exactly when a secret is set and the signature compares unequal. After the signature check, an undecodable body is a 400 `InvalidJson` and a missing identifying field the 400 of `ExtractIds`. An error other than a processing failure changes nothing. |
| Webhooks.ReceiveIntended | app/routers/webhooks.py:183-185 | The corrected handler records the processing time of a processed event, and answers every error as the code does. |
| Webhooks.FirstReceipt | app/routers/webhooks.py:130-143 | A first receipt stores the row from "factory" with the payload and signature. The row is processed exactly when handling succeeded; otherwise it has one retry and an error. |
| Webhooks.RedeliveryIsIdempotent | app/routers/webhooks.py:120-126 | Redelivering a handled event answers `already_processed` and changes nothing. |
| Webhooks.FailureIsRetried | app/routers/webhooks.py:127-128 | After a failure the event stays unprocessed, and a redelivery handles it again and adds a retry. |
| Webhooks.ShippedUpdate | services/spec_cache_service.py:22-153 | The shipped status update always raises. |
| Webhooks.ShippedDeploymentEventsNeverProcess | app/routers/webhooks.py:147-155 | With the shipped service, a deployment event is answered 500 and stays unprocessed. |
| Webhooks.WorkingUpdateProcesses | app/routers/webhooks.py:146-193 | With an update that returns, every new or unprocessed event is answered "processed" and marked processed (with no time, as written). |
| Webhooks.GetWebhookEvent | app/routers/webhooks.py:218-236 | 404 exactly for an unknown id. Otherwise it answers the stored row's id, source, type, prefab id, version, processing state, retry count, error and creation time. |
| Webhooks.ProcessedAtStaysNull | app/routers/webhooks.py:183-185 | As written, the query after a processed delivery answers `processed: true` with `processed_at: null`. |
| Webhooks.ProcessedAtReported | app/routers/webhooks.py:183-185 | With the time recorded, the query after a processed delivery reports that time. |
| FileHandler.OutputBucket | services/file_handler_service.py:46 | The bucket is never empty and is the configured one when set. |
| FileHandler.ParseS3Url | services/file_handler_service.py:206-214 | Another scheme is refused, and every error is a ValueError. A success is a valid location that formats back to the URL. |
| FileHandler.ParseFormat | services/file_handler_service.py:206-214 | Every valid location parses back from its URL. |
| FileHandler.ParseIsInverse | services/file_handler_service.py:206-214 | A URL parses to a valid location exactly when it is that location's URL. |
| FileHandler.ParseRejects | services/file_handler_service.py:206-214 | Examples only: "s3://b", "s3://b/" and "http://b/k" are refused. The general statement is the contract of FileHandler.ParseS3Url. |
| FileHandler.Name | services/file_handler_service.py:217 | A file name has no '/' and is not ".". |
| FileHandler.Suffix | services/file_handler_service.py:217 | A suffix is empty, or it is a '.' followed by at least one character with no '.' or '/', ending the name and shorter than it. It is non-empty exactly when the name does not end with '.' and has a '.' after its first character, so ".bashrc" and "a." have none. |
| FileHandler.NameOfChild | services/file_handler_service.py:219 | A file appended to a directory is the name of the result. |
| FileHandler.SuffixOfStem | services/file_handler_service.py:217 | A dot-free stem followed by a suffix-shaped extension has exactly that suffix. |
| FileHandler.SuffixAfterStem | services/file_handler_service.py:217 | Any non-empty stem, dots included, followed by an extension has exactly that extension as its suffix ("a.tar.gz" gives ".gz"). |
| FileHandler.ChildKeepsSuffix | services/file_handler_service.py:217-219 | A dot-free stem plus a suffix-shaped extension, placed in any directory, keeps its name and exactly that suffix. |
| FileHandler.Parts | services/file_handler_service.py:219 | The components of a path, as pathlib keeps them: none is empty or "." and none holds a '/'. |
| FileHandler.Root | services/file_handler_service.py:219 | A path's root is "", "/" or "//", and it is "" exactly for a relative path. |
| FileHandler.PartsOfRender | services/file_handler_service.py:219 | A printed path reads back as exactly the components it was printed from. |
| FileHandler.RootOfRender | services/file_handler_service.py:219 | A printed path keeps the root it was printed under. |
| FileHandler.PosixStrIdempotent | services/file_handler_service.py:219 | Printing a path that pathlib printed gives the same string. |
| FileHandler.NameOfPosixStr | services/file_handler_service.py:217-219 | Printing a path does not change its name. |
| FileHandler.NameOfJoin | services/file_handler_service.py:219 | A relative path with a component, joined under any directory, gives a path with the relative path's name. |
| FileHandler.LocalPathParts | services/file_handler_service.py:217-219 | The downloaded path has the workspace's root, then the workspace's components, then the local file name's components: empty and "." ones are dropped, so "a//b" gives ".../input_a/b". |
| FileHandler.LocalPathName | services/file_handler_service.py:217-219 | For any parameter name, the downloaded file is named by the last component of "input_" plus the name plus the extension: "a/" gives "input_a". |
| FileHandler.StoppedSweepKeepsAll | services/file_handler_service.py:329-347 | Wherever a sweep stops, it keeps every entry that is not an expired directory. |
| FileHandler.StoppedSweepRemovesFewer | services/file_handler_service.py:329-347 | A sweep stopped at an expired directory has removed fewer directories than a complete one. |
| FileHandler.LocalPathKeepsSuffix | services/file_handler_service.py:217-219 | The downloaded file is named "input_" plus the parameter name, and it keeps the object key's extension. |
| FileHandler.UploadKey | services/file_handler_service.py:262-264 | The key lies under "outputs/" followed by the request id and '/'. |
| FileHandler.UploadKeepsSuffix | services/file_handler_service.py:262-264 | The uploaded key keeps the local file's extension when the unique id has no '.' or '/'. |
| FileHandler.UploadRoundTrip | services/file_handler_service.py:264-281 | The URL of an upload parses back to the bucket and key it was uploaded under. |
| FileHandler.Fetch | services/file_handler_service.py:206-244 | A valid s3:// URL string whose download succeeds is replaced by its local path in the workspace. That path is `str(workspace / f"input_{name}{ext}")` as pathlib prints it (FileHandler.LocalPathParts). A non-string is an `AttributeError`, a malformed URL a `ValueError`, an S3 client error a `RuntimeError`, and any other failure propagates. |
| FileHandler.DownloadEach | services/file_handler_service.py:112-124 | It succeeds exactly when every declared `InputFile` present downloads, and then keeps the keys, keeps undeclared entries and replaces each declared one by its pathlib-printed local path. A failure is the error of a declared input. |
| FileHandler.DownloadInputFiles | services/file_handler_service.py:105-124 | With no root the inputs come back unchanged. Otherwise it succeeds exactly when every declared `InputFile` present downloads, each is replaced by its pathlib-printed local path, and the other entries are untouched. A failure is the error of a declared input. |
| FileHandler.Put | services/file_handler_service.py:154-165 | An existing file whose upload succeeds is replaced by its s3:// URL. A non-string is a `TypeError`, a missing file a `FileNotFoundError`, an S3 client error a `RuntimeError`, and any other failure propagates. |
| FileHandler.UploadEach | services/file_handler_service.py:153-167 | The keys are kept and undeclared fields are untouched. Each declared `OutputFile` was an existing file and becomes its uploaded URL. When every declared output uploads under any id, the loop succeeds; a failure is the error of a declared output. |
| FileHandler.UploadOutputFiles | services/file_handler_service.py:145-167 | With no root the output comes back unchanged. Otherwise each declared `OutputFile` must exist and becomes its upload URL, and the other fields are untouched. When every declared output uploads, it succeeds; a failure is the error of a declared output. |
| FileHandler.MissingOutputFileFails | services/file_handler_service.py:159-161 | A declared output file that does not exist makes the upload fail. |
| FileHandler.CreateWorkspace | services/file_handler_service.py:74-84 | Without a root it is a RuntimeError. A falsy job id is replaced. An existing directory is reused, and otherwise exactly one new directory appears. It fails only when a file is in the way. |
| FileHandler.CleanupWorkspace | services/file_handler_service.py:177-184 | It removes exactly an existing directory when `rmtree` succeeds, and otherwise changes nothing. |
| FileHandler.CreateThenCleanup | services/file_handler_service.py:74-184 | Creating a new workspace and cleaning it up restores the root listing. |
| FileHandler.SurvivorsExactly | services/file_handler_service.py:330-336 | A complete sweep keeps exactly the entries that are not expired directories. |
| FileHandler.ExpiredCount | services/file_handler_service.py:346 | The removed count plus the kept count is the number of entries. |
| FileHandler.ExpiredCountGrows | services/file_handler_service.py:330-346 | A prefix of the listing holds no more expired directories than the whole. |
| FileHandler.Sweep | services/file_handler_service.py:329-347 | A finished sweep keeps the survivors, counts the removals and sums their sizes, and no `rmtree` failed. It stops exactly when some expired directory cannot be removed. A stopped sweep stops at the first failing expired directory and keeps everything from it on. |
| FileHandler.ClassifyDisk | services/file_handler_service.py:354-360 | A zero total is a division error. Usage above 90% is critical, above 80% is high, and otherwise normal. |
| FileHandler.ClassifyMonotone | services/file_handler_service.py:354-360 | More usage never lowers the level. |
| FileHandler.RunCleanup | services/file_handler_service.py:320-363 | Nothing happens without a root. Every entry that is not an expired directory survives. When no `rmtree` fails, exactly the expired directories go, their number is counted and a level is reported whenever the disk total is non-zero. When one fails, no level is reported and fewer directories are counted than expired. |
| Auth.StringList | app/dependencies/auth.py:22 | An array of strings is accepted element for element, and nothing else is. |
| Auth.GetCurrentUser | app/dependencies/auth.py:50-76 | A token that does not decode, or has a null or missing `sub`, gives 401. So does a `sub` that is not a string, because python-jose's `jwt.decode` rejects it with a `JWTError`; 401 happens exactly in these cases. Claims with a string `sub`, a string or null `username` and, if present, a list of strings as `scopes` are accepted. A string `sub` with any other `username` or `scopes` is a 500. A user carries exactly the claims' `sub`, `username` and `scopes`, with no scopes when the claim is absent. |
| Auth.MinimalClaims | app/dependencies/auth.py:57-69 | Claims with only `sub` give a user with no name and no scopes. |
| Auth.RequireScope | app/dependencies/auth.py:89-96 | Passes the user unchanged exactly when the scope or "admin" is held. Otherwise it answers 403. |
| Auth.AdminTokenPassesEveryGuard | app/dependencies/auth.py:90 | A token with scope "admin" passes every guard. |
| Prefabs.GetPrefabSpec | app/routers/prefabs.py:35-51 | 404 exactly when the cache has no non-empty spec. Otherwise the id and version default to the path's, the name and description default to "", and the functions are the spec's. |
| Prefabs.ProjectionIgnoresOtherKeys | app/routers/prefabs.py:45-51 | Specs differing only outside the five keys read the same. |
| Prefabs.CachePrefabSpec | app/routers/prefabs.py:66-67 | The spec is stored under its key, nothing is removed, and every other cached spec keeps its value. |
| Prefabs.GetAfterPost | app/routers/prefabs.py:35-67 | A GET after a POST answers the posted spec's projection whoever posted it, or 404 for an empty spec. |
| SecretsRouter.StoreSecret | app/routers/secrets.py:31-40 | Answers 204, and the caller's secret reads back while other secrets are unchanged. |
| SecretsRouter.ListSecrets | app/routers/secrets.py:53-59 | Answers the requested prefab id and exactly the names of the caller's secrets for it. |
| SecretsRouter.DeleteSecret | app/routers/secrets.py:71-75 | Answers 204. The secret is gone, only its key is removed, and every other secret keeps its value. |
| SecretsRouter.StoredIsListed | app/routers/secrets.py:31-59 | A stored secret is listed for its owner, and other users' listings are unchanged. |
| SecretsRouter.DeletedIsNotListed | app/routers/secrets.py:53-75 | A deleted secret is not listed, and a second delete also answers 204. |
| SecretsRouter.ListingHidesValues | app/routers/secrets.py:53-59 | Listings never depend on secret values. |

## Left out

- The Redis mode of the spec cache, together with its TTL and the backend exceptions that reads and writes swallow. Only the in-memory mode is modelled.
- `services/encryption.py` and the database-backed secret storage: the vault is modelled as the in-memory `VaultService` instance.
- The prefab and secret endpoints as shipped. app/routers/prefabs.py:9 and app/routers/secrets.py:9 import the service submodules, not the instances (services/__init__.py:2-4 binds those names to the submodules). So every `get_spec`, `set_spec`, `store_secret`, `list_secrets` and `delete_secret` call there raises `AttributeError`, which is uncaught and answers 500. `Prefabs` and `SecretsRouter` model the intended wiring to the instances. The run endpoint as shipped is `Run.ShippedRunPrefabs`.
- The file handler's construction. config/settings.py defines no `workspace_root`, `s3_bucket`, `s3_endpoint_url` or `s3_region`, so building the instance at services/file_handler_service.py:367-372 raises `AttributeError` when app/main.py:34 imports the module. `FileHandler` takes these settings as parameters, as if they were defined.
- All I/O is replaced by parameters. This covers httpx, S3 (aioboto3), the file system, `uuid4`, `time.time`, `hmac`/`hashlib`, JSON decoding and `jwt.decode`. JWT signature, expiry and audience checking are the decoder's business.
- `start_cleanup_daemon`: the endless sleep loop is not modelled; one iteration is `FileHandler.RunCleanup`.
- FileHandler.ClassifyDisk: the disk thresholds are compared as exact ratios. Python's floating-point division and multiplication by 100 can round at the exact boundary.
- FileHandler.Sweep: `rmtree` is all-or-nothing. A partially removed directory, and an error while measuring a directory's size (which the source ignores), are not modelled.
- FileHandler.CreateWorkspace: the workspace path is built by plain concatenation. Path normalisation and job ids that contain '/' or ".." are not modelled.
- The webhook secret is a parameter. The settings class defines no `WEBHOOK_SECRET`, so in the shipped configuration the check is always skipped (secret `None`). `compare_digest`'s constant time is not modelled, and the HMAC function is supplied by the caller.
- Webhooks.ExtractIds: a truthy identifying field that is not a string is modelled as an internal error. The database's own coercion is not modelled.
- Database commits, transactions and concurrent deliveries of the same event are not modelled.
- The exact texts of pydantic and Python exception messages. The model keeps the exception type name and a representative message.
- Iteration order of Python sets and dicts. `list_user_files`, `list_secrets` and the secret-name listing are modelled as sets.
- Run.HandleOutputFiles: the empty set left behind when granting an unhashable value to a user with no entry is not modelled. `Acl.Granted` is the same either way.
- Malformed manifests are not modelled: a non-list `functions`, non-dict entries, and a non-dict `returns`. The manifest is typed; see the `Manifest` module.
- `models/requests.py` request validation (for example an empty `calls` list is accepted as it is). The batch is a sequence of already-validated calls.
- Logging, metrics and the FastAPI application wiring (`app/main.py`, health endpoints) are not modelled.

## Findings

| source | as written | input that shows it | evidently intended | confidence | as-written member | corrected member |
|---|---|---|---|---|---|---|
| app/routers/webhooks.py:183-185 | `processed_at` is set to null in the expectation that the database fills it in, but the column (db/models.py:138) has no default. | Any event that is processed: `GET /webhooks/events/{id}` then answers `processed: true` with `processed_at: null`. | The processing time is recorded when the event is marked processed. | not executed | Webhooks.ProcessedAtStaysNull | Webhooks.ProcessedAtReported |
| app/routers/webhooks.py:147-180 | The handler calls `spec_cache_service.update_deployment_status`, which `SpecCacheService` (services/spec_cache_service.py:22-153) does not define, so the lookup raises `AttributeError` inside the `try`. | A delivery of `{"event_id": "e1", "event_type": "deployment.success", "prefab_id": "p", "version": "1"}`: it is answered 500, and the event stays unprocessed with one more retry on every redelivery. | The deployment status is updated and the event is processed. | not executed | Webhooks.ShippedDeploymentEventsNeverProcess | Webhooks.WorkingUpdateProcesses |
| app/routers/run.py:12 | `from services import vault_service, acl_service, spec_cache_service` yields the submodules: services/__init__.py:2-4 imports the classes from them, which binds those package attributes to the modules. So `spec_cache_service.get_spec` (run.py:57) raises `AttributeError`, and run.py:120-126 turns it into a FAILED result. | Any non-empty batch, for example one call to a stored spec whose downstream answers `{}`: it is answered PARTIAL_SUCCESS with the call FAILED and `"type": "AttributeError"`, and no check, downstream call or grant happens. | The router uses the instances created at services/vault_service.py:120, services/acl_service.py:110 and services/spec_cache_service.py:157, as app/main.py:12 and app/routers/webhooks.py:13 do. | not executed | Run.ShippedRunPrefabs | Run.SuccessfulCall |

=== FILE: acl.dfy ===
/** The access-control ledger (services/acl_service.py): for each user, the
    set of resources that user owns.  Reading is allowed exactly on owned
    resources; writing currently asks the same question.  The ledger is
    generic in the resource type: the service is called with S3 URIs, and
    the run pipeline hands it whatever hashable JSON value an input or
    output holds. */
module Acl {

  type Ledger<R> = map<string, set<R>>

  /** `self._user_files.get(user_id, set())`. */
  function Granted<R>(acl: Ledger<R>, user: string): set<R> {
    if user in acl then acl[user] else {}
  }

  /** `can_read`: membership in the user's set. */
  function CanRead<R>(acl: Ledger<R>, user: string, resource: R): (b: bool)
    ensures b <==> user in acl && resource in acl[user]
  {
    resource in Granted(acl, user)
  }

  /** `can_write` defers to the read check. */
  function CanWrite<R>(acl: Ledger<R>, user: string, resource: R): (b: bool)
    ensures b <==> user in acl && resource in acl[user]
  {
    CanRead(acl, user, resource)
  }

  /** `grant_ownership`: adds the resource to the user's set, creating the
      set for a user seen for the first time. */
  function GrantOwnership<R>(acl: Ledger<R>, user: string, resource: R): (r: Ledger<R>)
    ensures Granted(r, user) == Granted(acl, user) + {resource}
    ensures forall u :: u != user ==> Granted(r, u) == Granted(acl, u)
  {
    acl[user := Granted(acl, user) + {resource}]
  }

  /** `revoke_access`: removes the resource and reports whether the user held
      it; a user who did not hold it leaves the ledger untouched. */
  function RevokeAccess<R>(acl: Ledger<R>, user: string, resource: R): (r: (Ledger<R>, bool))
    ensures r.1 <==> CanRead(acl, user, resource)
    ensures Granted(r.0, user) == Granted(acl, user) - {resource}
    ensures forall u :: u != user ==> Granted(r.0, u) == Granted(acl, u)
    ensures !r.1 ==> r.0 == acl
  {
    if user in acl && resource in acl[user] then
      (acl[user := acl[user] - {resource}], true)
    else
      (acl, false)
  }

  /** `list_user_files`: the user's resources (the source returns them as a
      list in set-iteration order, which carries no meaning). */
  function ListUserFiles<R(!new)>(acl: Ledger<R>, user: string): (r: set<R>)
    ensures forall x :: x in r <==> CanRead(acl, user, x)
    ensures user !in acl ==> r == {}
  {
    Granted(acl, user)
  }

  /** After a grant the owner can read the resource, and the other users'
      rights are what they were. */
  lemma GrantThenRead<R>(acl: Ledger<R>, user: string, resource: R, other: string, x: R)
    ensures CanRead(GrantOwnership(acl, user, resource), user, resource)
    ensures other != user ==>
      CanRead(GrantOwnership(acl, user, resource), other, x) == CanRead(acl, other, x)
  {
  }

  /** Granting twice is granting once. */
  lemma GrantIdempotent<R>(acl: Ledger<R>, user: string, resource: R)
    ensures var once := GrantOwnership(acl, user, resource);
            GrantOwnership(once, user, resource) == once
  {
  }

  /** After a revocation the user can no longer read the resource, and a
      second revocation reports that there was nothing to revoke. */
  lemma RevokeThenNoRead<R>(acl: Ledger<R>, user: string, resource: R)
    ensures var (after, _) := RevokeAccess(acl, user, resource);
            !CanRead(after, user, resource) && RevokeAccess(after, user, resource) == (after, false)
  {
  }

  /** Granting and then revoking the same fresh resource gives back the same
      rights for every user. */
  lemma GrantRevokeRoundTrip<R>(acl: Ledger<R>, user: string, resource: R, u: string)
    requires !CanRead(acl, user, resource)
    ensures var (after, held) := RevokeAccess(GrantOwnership(acl, user, resource), user, resource);
            held && Granted(after, u) == Granted(acl, u)
  {
  }
}

=== FILE: auth.dfy ===
/** Bearer-token authentication and the scope guard
    (app/dependencies/auth.py).  Signature, expiry and audience checks are
    the decoder's business: it answers the token's claims, or `None` when
    it raises `JWTError`.  What remains are the claim checks that build the
    `User`, and the scope test. */
module Auth {
  import opened Wrappers
  import opened Json

  /** `User`: `user_id`, an optional `username`, and `scopes` (empty by
      default). */
  datatype User = User(userId: string, username: Option<string>, scopes: seq<string>)

  datatype AuthError =
    | Unauthorized
    | Forbidden(requiredScope: string)
    | InvalidClaims(message: string)
  {
    function StatusCode(): int {
      match this
      case Unauthorized => 401
      case Forbidden(_) => 403
      case InvalidClaims(_) => 500
    }
  }

  /** `jwt.decode` with the configured key, algorithm and audience. */
  type Decoder = string -> Option<map<string, Json>>

  function Claim(claims: map<string, Json>, key: string): Json {
    if key in claims then claims[key] else JNull
  }

  /** What `list[str]` accepts from JSON: an array of strings. */
  function StringList(v: Json): (r: Option<seq<string>>)
    ensures r.Some? <==> v.JArray? && forall i :: 0 <= i < |v.items| ==> v.items[i].JStr?
    ensures r.Some? ==> |r.value| == |v.items| && forall i :: 0 <= i < |r.value| ==> v.items[i] == JStr(r.value[i])
    decreases if v.JArray? then |v.items| else 0
  {
    if !v.JArray? then None
    else if v.items == [] then Some([])
    else if !v.items[0].JStr? then None
    else
      var rest := JArray(v.items[1..]);
      assert forall i :: 1 <= i < |v.items| ==> v.items[i] == rest.items[i - 1];
      match StringList(rest)
      case None => None
      case Some(tail) => Some([v.items[0].s] + tail)
  }

  /** `get_current_user`: a token that does not decode, or whose claims
      have no `sub` (or a null one), is refused with 401.  So is a `sub`
      that is present but not a string: python-jose's `jwt.decode` checks
      that claim itself and raises `JWTClaimsError`, a `JWTError`.  The
      remaining claims must fit the `User` model, or pydantic raises and the
      request fails with 500: `username` a string or null, `scopes` an array
      of strings, or absent. */
  function GetCurrentUser(token: string, decode: Decoder): (r: Result<User, AuthError>)
    ensures decode(token).None? ==> r == Err(Unauthorized)
    ensures decode(token).Some? && Claim(decode(token).value, "sub") == JNull ==> r == Err(Unauthorized)
    ensures r == Err(Unauthorized) <==> decode(token).None? || !Claim(decode(token).value, "sub").JStr?
    ensures r.Err? ==> r.error.StatusCode() in {401, 500}
    ensures r.Ok? ==> var claims := decode(token).value;
              Claim(claims, "sub") == JStr(r.value.userId) &&
              (r.value.username.None? <==> Claim(claims, "username") == JNull) &&
              (r.value.username.Some? ==> Claim(claims, "username") == JStr(r.value.username.value)) &&
              ("scopes" !in claims ==> r.value.scopes == []) &&
              ("scopes" in claims ==> StringList(claims["scopes"]) == Some(r.value.scopes))
    ensures decode(token).Some? ==> var claims := decode(token).value;
              var sub, username := Claim(claims, "sub"), Claim(claims, "username");
              var fits := sub.JStr? && (username.JNull? || username.JStr?) &&
                          ("scopes" !in claims || StringList(claims["scopes"]).Some?);
              (fits ==> r.Ok?) &&
              (sub.JStr? && !fits ==> r.Err? && r.error.InvalidClaims? && r.error.StatusCode() == 500)
  {
    match decode(token)
    case None => Err(Unauthorized)
    case Some(claims) =>
      var sub := Claim(claims, "sub");
      var username := Claim(claims, "username");
      var scopes := if "scopes" in claims then StringList(claims["scopes"]) else Some([]);
      if !sub.JStr? then Err(Unauthorized)
      else if !(username.JNull? || username.JStr?) then Err(InvalidClaims("username: Input should be a valid string"))
      else if scopes.None? then Err(InvalidClaims("scopes: Input should be a valid list"))
      else Ok(User(sub.s, if username.JStr? then Some(username.s) else None, scopes.value))
  }

  /** Claims with a string `sub` and nothing else give a user with no name
      and no scopes. */
  lemma MinimalClaims(token: string, decode: Decoder, sub: string)
    requires decode(token) == Some(map["sub" := JStr(sub)])
    ensures GetCurrentUser(token, decode) == Ok(User(sub, None, []))
  {
  }

  /** `require_scope(scope)`: the user passes, unchanged, exactly when the
      scope or "admin" is among their scopes; otherwise 403. */
  function RequireScope(user: User, scope: string): (r: Result<User, AuthError>)
    ensures r.Ok? <==> scope in user.scopes || "admin" in user.scopes
    ensures r.Ok? ==> r.value == user
    ensures r.Err? ==> r.error == Forbidden(scope) && r.error.StatusCode() == 403
  {
    if scope !in user.scopes && "admin" !in user.scopes then Err(Forbidden(scope)) else Ok(user)
  }

  /** A token whose scopes include "admin" passes every scope guard. */
  lemma AdminTokenPassesEveryGuard(token: string, decode: Decoder, scope: string)
    requires GetCurrentUser(token, decode).Ok?
    requires "scopes" in decode(token).value
    requires JStr("admin") in decode(token).value["scopes"].items
    ensures RequireScope(GetCurrentUser(token, decode).value, scope).Ok?
  {
    var user := GetCurrentUser(token, decode).value;
    var items := decode(token).value["scopes"].items;
    var i :| 0 <= i < |items| && items[i] == JStr("admin");
    assert user.scopes[i] == "admin";
  }
}

=== FILE: file_handler.dfy ===
/** The decision logic of the file handler (services/file_handler_service.py):
    s3:// URL parsing, the names given to downloaded and uploaded files,
    the substitution of `InputFile` inputs and `OutputFile` outputs, the
    job workspaces, and the periodic sweep of expired workspaces with its
    disk-usage classification.  Transfers, the file system and the clock
    are outcomes the caller supplies. */
module FileHandler {
  import opened Wrappers
  import opened Json
  import opened Text
  import opened Manifest

  const S3Scheme: string := "s3://"

  /** The bucket used when none is configured (`s3_bucket or "prefab-outputs"`). */
  const DefaultBucket: string := "prefab-outputs"

  function OutputBucket(configured: Option<string>): (b: string)
    ensures b != ""
    ensures configured.Some? && configured.value != "" ==> b == configured.value
  {
    if configured.Some? && configured.value != "" then configured.value else DefaultBucket
  }

  datatype S3Location = S3Location(bucket: string, key: string)

  /** A location some URL parses to: the bucket ends at the first '/', and
      the key is not empty. */
  predicate ValidLocation(l: S3Location) {
    '/' !in l.bucket && l.key != ""
  }

  /** `f"s3://{bucket}/{key}"`. */
  function FormatS3Url(l: S3Location): string {
    S3Scheme + l.bucket + "/" + l.key
  }

  function ValueError(message: string): ErrorInfo {
    ErrorInfo(message, "ValueError")
  }

  /** The URL parsing of `_download_from_s3`: the scheme must be "s3://";
      the bucket runs up to the first '/', the key is everything after it,
      and an empty key (as in "s3://b" or "s3://b/") is refused. */
  function ParseS3Url(url: string): (r: Result<S3Location, ErrorInfo>)
    ensures !StartsWith(url, S3Scheme) ==> r.Err?
    ensures r.Err? ==> r.error.typeName == "ValueError"
    ensures r.Ok? ==> ValidLocation(r.value) && FormatS3Url(r.value) == url
  {
    if !StartsWith(url, S3Scheme) then Err(ValueError("Invalid S3 URL: " + url))
    else
      var rest := url[5..];
      var i := IndexOf(rest, '/');
      var bucket := rest[..i];
      var key := if i < |rest| then rest[i + 1..] else "";
      if key == "" then Err(ValueError("Invalid S3 URL (missing key): " + url))
      else
        assert rest == bucket + "/" + key;
        assert url == url[..5] + rest;
        Ok(S3Location(bucket, key))
  }

  /** Every valid location survives formatting and parsing. */
  lemma ParseFormat(l: S3Location)
    requires ValidLocation(l)
    ensures ParseS3Url(FormatS3Url(l)) == Ok(l)
  {
    var url := FormatS3Url(l);
    assert url[..5] == S3Scheme;
    assert url[5..] == l.bucket + ("/" + l.key);
    IndexOfAppend(l.bucket, "/" + l.key, '/');
    assert IndexOf(l.bucket, '/') == |l.bucket|;
  }

  /** Parsing and formatting are inverse on valid locations: a URL parses to
      a valid location exactly when it is that location's URL. */
  lemma ParseIsInverse(url: string, l: S3Location)
    requires ValidLocation(l)
    ensures ParseS3Url(url) == Ok(l) <==> url == FormatS3Url(l)
  {
    if url == FormatS3Url(l) {
      ParseFormat(l);
    }
  }

  /** Examples of the refusals: a URL without a key, one whose key is
      empty, and one with another scheme. */
  lemma ParseRejects()
    ensures ParseS3Url("s3://b").Err?
    ensures ParseS3Url("s3://b/").Err?
    ensures ParseS3Url("http://b/k").Err?
  {
    assert StartsWith("s3://b", S3Scheme) && "s3://b"[5..] == "b";
    assert IndexOf("b", '/') == 1;
    assert StartsWith("s3://b/", S3Scheme) && "s3://b/"[5..] == "b/";
    assert IndexOf("b/", '/') == 1;
    assert !StartsWith("http://b/k", S3Scheme) by {
      assert "http://b/k"[..5][0] == 'h' != S3Scheme[0];
    }
  }

  // ---------------------------------------------------------------------
  // Path names (PurePosixPath.name and .suffix)
  // ---------------------------------------------------------------------

  /** The last component that is neither empty nor ".", which is what
      `Path` keeps as the final part. */
  function LastComponent(parts: seq<string>): (r: string)
    ensures r == "" || (r != "." && r in parts)
  {
    if parts == [] then ""
    else
      var last := parts[|parts| - 1];
      if last == "" || last == "." then LastComponent(parts[..|parts| - 1]) else last
  }

  /** `Path(path).name`. */
  function Name(path: string): (r: string)
    ensures '/' !in r && r != "."
  {
    LastComponent(Split(path, '/'))
  }

  /** `Path(path).suffix`: from the last '.' of the name, provided that dot
      is neither the first nor the last character of the name; else "". */
  function Suffix(path: string): (r: string)
    ensures r == "" || (|r| >= 2 && r[0] == '.' && '.' !in r[1..] && '/' !in r)
    ensures r != "" ==> |r| < |Name(path)| && Name(path)[|Name(path)| - |r|..] == r
    ensures var n := Name(path);
            r != "" <==> |n| >= 2 && n[|n| - 1] != '.' && exists j :: 0 < j < |n| - 1 && n[j] == '.'
  {
    var name := Name(path);
    var i := LastIndexOf(name, '.');
    if 0 < i < |name| - 1 then
      assert forall j :: 0 <= j < |name[i..]| - 1 ==> name[i..][1..][j] == name[i + 1 + j];
      assert name[|name| - 1] != '.';
      name[i..]
    else
      assert i == |name| - 1 || forall j :: 0 < j < |name| - 1 ==> name[j] != '.';
      ""
  }

  /** A file appended to a directory path is the name of the result. */
  lemma NameOfChild(dir: string, file: string)
    requires '/' !in file && file != "" && file != "."
    ensures Name(dir + "/" + file) == file
  {
    SplitAppend(dir, file, '/');
  }

  /** A stem without dots followed by a suffix-shaped extension has exactly
      that extension as its suffix. */
  lemma SuffixOfStem(stem: string, ext: string)
    requires stem != "" && '.' !in stem && '/' !in stem
    requires ext == "" || (|ext| >= 2 && ext[0] == '.' && '.' !in ext[1..] && '/' !in ext)
    ensures Suffix(stem + ext) == ext
  {
    var name := stem + ext;
    assert Split(name, '/') == [name] by {
      assert IndexOf(name, '/') == |name|;
    }
    assert Name(name) == name;
    var i := LastIndexOf(name, '.');
    if ext == "" {
      assert name == stem;
      assert i == -1;
    } else {
      assert name[|stem|] == '.';
      assert forall j :: |stem| < j < |name| ==> name[j] == ext[1..][j - |stem| - 1];
      assert i == |stem|;
      assert name[i..] == ext;
    }
  }

  /** Any stem, dots and all, followed by an extension keeps only that
      extension as its suffix: the suffix of "a.tar.gz" is ".gz". */
  lemma SuffixAfterStem(stem: string, ext: string)
    requires stem != "" && '/' !in stem
    requires |ext| >= 2 && ext[0] == '.' && '.' !in ext[1..] && '/' !in ext
    ensures Suffix(stem + ext) == ext
  {
    var name := stem + ext;
    assert Split(name, '/') == [name] by {
      assert IndexOf(name, '/') == |name|;
    }
    assert Name(name) == name;
    assert name[|stem|] == '.';
    assert forall j :: |stem| < j < |name| ==> name[j] == ext[1..][j - |stem| - 1];
    assert LastIndexOf(name, '.') == |stem|;
    assert name[|stem|..] == ext;
  }

  // ---------------------------------------------------------------------
  // Printed paths (str(PurePosixPath(...)))
  // ---------------------------------------------------------------------

  /** Whether pathlib keeps a component: empty ones (from a leading,
      repeated or trailing '/') and "." are dropped, ".." is kept. */
  predicate KeptPart(c: string) {
    c != "" && c != "."
  }

  /** The components pathlib keeps, in order. */
  function Kept(cs: seq<string>): (r: seq<string>)
    ensures forall i :: 0 <= i < |r| ==> KeptPart(r[i]) && r[i] in cs
  {
    if cs == [] then []
    else (if KeptPart(cs[0]) then [cs[0]] else []) + Kept(cs[1..])
  }

  /** The components of a path. */
  function Parts(p: string): (r: seq<string>)
    ensures forall i :: 0 <= i < |r| ==> KeptPart(r[i]) && '/' !in r[i]
  {
    Kept(Split(p, '/'))
  }

  /** The root of a path: "//" for exactly two leading slashes, "/" for
      one or three and more, "" for a relative path. */
  function Root(p: string): (r: string)
    ensures r == "" || r == "/" || r == "//"
    ensures r == "" <==> |p| == 0 || p[0] != '/'
  {
    if |p| >= 2 && p[0] == '/' && p[1] == '/' && (|p| == 2 || p[2] != '/') then "//"
    else if |p| >= 1 && p[0] == '/' then "/"
    else ""
  }

  /** How pathlib prints a root and its components ("." for nothing). */
  function Render(root: string, parts: seq<string>): string
    requires parts != [] ==> forall i :: 0 <= i < |parts| ==> '/' !in parts[i]
  {
    if parts == [] then (if root == "" then "." else root)
    else root + Join(parts, '/')
  }

  /** `str(PurePosixPath(p))`. */
  function PosixStr(p: string): string {
    Render(Root(p), Parts(p))
  }

  /** `str(Path(dir) / rel)`: an absolute `rel` replaces `dir`; otherwise
      the components of both are printed under the root of `dir`. */
  function JoinPath(dir: string, rel: string): string {
    if Root(rel) != "" then PosixStr(rel)
    else Render(Root(dir), Parts(dir) + Parts(rel))
  }

  /** Kept components that are all keepable come through unchanged. */
  lemma {:induction false} KeptAll(cs: seq<string>)
    requires forall i :: 0 <= i < |cs| ==> KeptPart(cs[i])
    ensures Kept(cs) == cs
  {
    if cs != [] {
      KeptAll(cs[1..]);
    }
  }

  /** Keeping distributes over concatenation. */
  lemma {:induction false} KeptAppend(a: seq<string>, b: seq<string>)
    ensures Kept(a + b) == Kept(a) + Kept(b)
  {
    if a != [] {
      assert (a + b)[0] == a[0] && (a + b)[1..] == a[1..] + b;
      KeptAppend(a[1..], b);
    } else {
      assert a + b == b;
    }
  }

  /** The last component that `Name` finds is the last kept one. */
  lemma {:induction false} LastComponentIsLastKept(cs: seq<string>)
    ensures LastComponent(cs) == if Kept(cs) == [] then "" else Kept(cs)[|Kept(cs)| - 1]
  {
    if cs != [] {
      var init, last := cs[..|cs| - 1], cs[|cs| - 1];
      assert cs == init + [last];
      KeptAppend(init, [last]);
      assert Kept([last]) == (if KeptPart(last) then [last] else []);
      LastComponentIsLastKept(init);
    }
  }

  /** The name of a path is its last component. */
  lemma NameIsLastPart(p: string)
    ensures Name(p) == if Parts(p) == [] then "" else Parts(p)[|Parts(p)| - 1]
  {
    LastComponentIsLastKept(Split(p, '/'));
  }

  /** The empty pieces a root contributes to a split. */
  function RootPieces(root: string): seq<string> {
    if root == "" then [] else if root == "/" then [""] else ["", ""]
  }

  /** A leading '/' splits off one empty piece. */
  lemma SplitAfterSlash(s: string)
    ensures Split("/" + s, '/') == [""] + Split(s, '/')
  {
    var slash: string := "/";
    assert "/" + s == "" + slash + s;
    SplitCons("", s, '/');
  }

  /** A root in front of a string adds its empty pieces to the split. */
  lemma SplitAfterRoot(root: string, s: string)
    requires root == "" || root == "/" || root == "//"
    ensures Split(root + s, '/') == RootPieces(root) + Split(s, '/')
  {
    if root == "/" {
      SplitAfterSlash(s);
    } else if root == "//" {
      assert root + s == "/" + ("/" + s);
      SplitAfterSlash("/" + s);
      SplitAfterSlash(s);
    } else {
      assert root + s == s;
    }
  }

  /** The pieces of a root are all dropped. */
  lemma KeptRootPieces(root: string)
    ensures Kept(RootPieces(root)) == []
  {
    var pieces: seq<string> := ["", ""];
    assert pieces[1..] == [""];
  }

  /** A printed path reads back as the same components. */
  lemma PartsOfRender(root: string, parts: seq<string>)
    requires root == "" || root == "/" || root == "//"
    requires forall i :: 0 <= i < |parts| ==> KeptPart(parts[i]) && '/' !in parts[i]
    ensures Parts(Render(root, parts)) == parts
  {
    if parts == [] {
      if root == "" {
        SplitNoSep(".", '/');
      } else {
        SplitAfterRoot(root, "");
        KeptRootPieces(root);
        SplitNoSep("", '/');
        assert root + "" == root;
        KeptAppend(RootPieces(root), [""]);
      }
    } else {
      KeptAll(parts);
      SplitJoin(parts, '/');
      SplitAfterRoot(root, Join(parts, '/'));
      KeptRootPieces(root);
      KeptAppend(RootPieces(root), parts);
    }
  }

  /** Printing keeps the root. */
  lemma RootOfRender(root: string, parts: seq<string>)
    requires root == "" || root == "/" || root == "//"
    requires forall i :: 0 <= i < |parts| ==> KeptPart(parts[i]) && '/' !in parts[i]
    ensures Root(Render(root, parts)) == root
  {
    if parts != [] {
      JoinHead(parts, '/');
      var r := Render(root, parts);
      assert parts[0][0] != '/' by {
        assert parts[0][0] in parts[0];
      }
      assert r[|root|] == parts[0][0];
    }
  }

  /** Printing a printed path changes nothing. */
  lemma PosixStrIdempotent(p: string)
    ensures PosixStr(PosixStr(p)) == PosixStr(p)
  {
    RootOfRender(Root(p), Parts(p));
    PartsOfRender(Root(p), Parts(p));
  }

  /** A path keeps its name when it is printed. */
  lemma NameOfPosixStr(p: string)
    ensures Name(PosixStr(p)) == Name(p)
  {
    PartsOfRender(Root(p), Parts(p));
    NameIsLastPart(p);
    NameIsLastPart(PosixStr(p));
  }

  /** The components of two paths, one after the other, are components
      pathlib would keep. */
  lemma PartsAppendClean(a: string, b: string)
    ensures var ps := Parts(a) + Parts(b);
            forall i :: 0 <= i < |ps| ==> KeptPart(ps[i]) && '/' !in ps[i]
  {
    var ps := Parts(a) + Parts(b);
    forall i | 0 <= i < |ps| ensures KeptPart(ps[i]) && '/' !in ps[i] {
      if i >= |Parts(a)| {
        assert ps[i] == Parts(b)[i - |Parts(a)|];
      }
    }
  }

  /** A relative path joined under a directory is named by the last
      component of the relative path, when it has one. */
  lemma NameOfJoin(dir: string, rel: string)
    requires Root(rel) == "" && Parts(rel) != []
    ensures Name(JoinPath(dir, rel)) == Name(rel)
  {
    PartsAppendClean(dir, rel);
    PartsOfRender(Root(dir), Parts(dir) + Parts(rel));
    NameIsLastPart(JoinPath(dir, rel));
    NameIsLastPart(rel);
  }

  // ---------------------------------------------------------------------
  // Downloaded and uploaded names
  // ---------------------------------------------------------------------

  /** `f"input_{param_name}{Path(key).suffix}"`. */
  function LocalInputName(param: string, key: string): string {
    "input_" + param + Suffix(key)
  }

  /** `str(workspace / local_filename)`: pathlib drops the empty and "."
      components a parameter name can bring, so "a/" and "a//b" give
      ".../input_a" and ".../input_a/b". */
  function LocalInputPath(workspace: string, param: string, key: string): string {
    JoinPath(workspace, LocalInputName(param, key))
  }

  /** The suffix of a path is decided by its name alone. */
  lemma SuffixOfName(p1: string, p2: string)
    requires Name(p1) == Name(p2)
    ensures Suffix(p1) == Suffix(p2)
  {
  }

  /** A file named by a dot-free stem and a suffix-shaped extension, placed
      in any directory, keeps its name and its extension. */
  lemma ChildKeepsSuffix(dir: string, stem: string, ext: string)
    requires stem != "" && '.' !in stem && '/' !in stem
    requires ext == "" || (|ext| >= 2 && ext[0] == '.' && '.' !in ext[1..] && '/' !in ext)
    ensures Name(dir + "/" + (stem + ext)) == stem + ext
    ensures Suffix(dir + "/" + (stem + ext)) == ext
  {
    var file := stem + ext;
    assert '/' !in file;
    assert file != "." by {
      assert file[0] == stem[0] != '.';
    }
    NameOfChild(dir, file);
    SuffixOfStem(stem, ext);
    SplitNoSep(file, '/');
    assert Name(file) == file;
    SuffixOfName(dir + "/" + file, file);
  }

  /** A relative path that starts with an ordinary character has a first
      component, so it has a name. */
  lemma PartsOfPlain(rel: string)
    requires rel != "" && rel[0] != '/' && rel[0] != '.'
    ensures Root(rel) == "" && Parts(rel) != []
  {
    var i := IndexOf(rel, '/');
    assert i > 0;
    var first := Split(rel, '/')[0];
    assert first == rel[..i] && first[0] == rel[0];
    assert KeptPart(first);
  }

  /** Whatever the parameter name, the downloaded file is named by the
      last component of `input_{param_name}{ext}`: "a/" gives "input_a". */
  lemma LocalPathName(workspace: string, param: string, key: string)
    ensures Name(LocalInputPath(workspace, param, key)) == Name(LocalInputName(param, key))
  {
    var rel := LocalInputName(param, key);
    assert rel[0] == 'i';
    PartsOfPlain(rel);
    NameOfJoin(workspace, rel);
  }

  /** The downloaded path is the workspace's components followed by those
      of the local file name, under the workspace's root: "a//b" gives
      ".../input_a/b". */
  lemma LocalPathParts(workspace: string, param: string, key: string)
    ensures Root(LocalInputPath(workspace, param, key)) == Root(workspace)
    ensures Parts(LocalInputPath(workspace, param, key)) == Parts(workspace) + Parts(LocalInputName(param, key))
  {
    var rel := LocalInputName(param, key);
    assert rel[0] == 'i';
    PartsOfPlain(rel);
    var ps := Parts(workspace) + Parts(rel);
    PartsAppendClean(workspace, rel);
    PartsOfRender(Root(workspace), ps);
    RootOfRender(Root(workspace), ps);
  }

  /** A downloaded file keeps the extension of its object key, for every
      parameter name without '.' or '/'. */
  lemma LocalPathKeepsSuffix(workspace: string, param: string, key: string)
    requires '.' !in param && '/' !in param
    ensures Name(LocalInputPath(workspace, param, key)) == LocalInputName(param, key)
    ensures Suffix(LocalInputPath(workspace, param, key)) == Suffix(key)
  {
    var stem, ext := "input_" + param, Suffix(key);
    var rel := stem + ext;
    assert '.' !in "input_" && '/' !in "input_";
    assert '/' !in rel;
    SplitNoSep(rel, '/');
    assert rel[0] == 'i';
    assert Name(rel) == rel;
    LocalPathName(workspace, param, key);
    SuffixOfStem(stem, ext);
    SuffixOfName(LocalInputPath(workspace, param, key), rel);
  }

  /** `f"outputs/{request_id}/{unique_id}{Path(local).suffix}"`. */
  function UploadKey(requestId: string, uniqueId: string, localPath: string): (key: string)
    ensures StartsWith(key, "outputs/" + requestId + "/")
    ensures key != ""
  {
    var key := "outputs/" + requestId + "/" + uniqueId + Suffix(localPath);
    assert key[..|"outputs/" + requestId + "/"|] == "outputs/" + requestId + "/";
    key
  }

  /** An uploaded object keeps the extension of the local file whenever the
      unique id has no '.' or '/' (as a UUID has none). */
  lemma UploadKeepsSuffix(requestId: string, uniqueId: string, localPath: string)
    requires uniqueId != "" && '.' !in uniqueId && '/' !in uniqueId
    ensures Suffix(UploadKey(requestId, uniqueId, localPath)) == Suffix(localPath)
  {
    var dir, ext := "outputs/" + requestId, Suffix(localPath);
    assert UploadKey(requestId, uniqueId, localPath) == dir + "/" + (uniqueId + ext);
    ChildKeepsSuffix(dir, uniqueId, ext);
  }

  /** The URL an upload answers parses back to the bucket and key it was
      uploaded under. */
  lemma UploadRoundTrip(bucket: string, requestId: string, uniqueId: string, localPath: string)
    requires '/' !in bucket
    ensures var l := S3Location(bucket, UploadKey(requestId, uniqueId, localPath));
            ParseS3Url(FormatS3Url(l)) == Ok(l)
  {
    ParseFormat(S3Location(bucket, UploadKey(requestId, uniqueId, localPath)));
  }

  // ---------------------------------------------------------------------
  // Input and output substitution
  // ---------------------------------------------------------------------

  /** How a transfer went: done, refused by S3 with an error code (a
      `ClientError`), or failed with some other exception. */
  datatype Transfer = Transferred | ClientFailure(code: string) | OtherFailure(exc: ErrorInfo)

  /** Downloads an object to a local path. */
  type Downloader = (S3Location, string) -> Transfer

  /** Uploads a local file to a location. */
  type Uploader = (string, S3Location) -> Transfer

  /** `param_type == "InputFile" and param_name in inputs` holds for some
      parameter named `k`. */
  ghost predicate DeclaresInputFile(params: seq<Param>, k: string) {
    exists i :: 0 <= i < |params| && IsInputFile(params[i]) && params[i].name == Some(k)
  }

  /** A parameter list declares `k` when its head does or its tail does. */
  lemma DeclaresInputFileCons(params: seq<Param>)
    requires params != []
    ensures forall k :: DeclaresInputFile(params, k) <==>
              (IsInputFile(params[0]) && params[0].name == Some(k)) || DeclaresInputFile(params[1..], k)
  {
    forall k | DeclaresInputFile(params[1..], k) ensures DeclaresInputFile(params, k) {
      var i :| 0 <= i < |params[1..]| && IsInputFile(params[1..][i]) && params[1..][i].name == Some(k);
      assert params[i + 1] == params[1..][i];
    }
    forall k | DeclaresInputFile(params, k) && !(IsInputFile(params[0]) && params[0].name == Some(k))
      ensures DeclaresInputFile(params[1..], k)
    {
      var i :| 0 <= i < |params| && IsInputFile(params[i]) && params[i].name == Some(k);
      assert params[1..][i - 1] == params[i];
    }
  }

  /** `_download_from_s3` for one input: the local path that replaces the
      URL, or the exception.  A value that is not a string has no
      `startswith`; a malformed URL is a `ValueError`; a `ClientError` of the
      transfer becomes a `RuntimeError`, and any other failure propagates. */
  function Fetch(inputs: map<string, Json>, name: string, workspace: string, download: Downloader)
    : (r: Result<Json, ErrorInfo>)
    requires name in inputs
    ensures r.Ok? ==> inputs[name].JStr? && ParseS3Url(inputs[name].s).Ok? &&
                      r.value == JStr(LocalInputPath(workspace, name, ParseS3Url(inputs[name].s).value.key))
    ensures !inputs[name].JStr? ==> r.Err? && r.error.typeName == "AttributeError"
    ensures inputs[name].JStr? && ParseS3Url(inputs[name].s).Err? ==> r == Err(ParseS3Url(inputs[name].s).error)
    ensures inputs[name].JStr? && ParseS3Url(inputs[name].s).Ok? ==>
              var loc := ParseS3Url(inputs[name].s).value;
              match download(loc, LocalInputPath(workspace, name, loc.key))
              case Transferred => r.Ok?
              case ClientFailure(_) => r.Err? && r.error.typeName == "RuntimeError"
              case OtherFailure(e) => r == Err(e)
  {
    var v := inputs[name];
    if !v.JStr? then Err(ErrorInfo("'" + TypeName(v) + "' object has no attribute 'startswith'", "AttributeError"))
    else match ParseS3Url(v.s)
      case Err(e) => Err(e)
      case Ok(loc) =>
        var local := LocalInputPath(workspace, name, loc.key);
        match download(loc, local)
        case Transferred => Ok(JStr(local))
        case ClientFailure(code) => Err(ErrorInfo("Failed to download file from S3: " + code, "RuntimeError"))
        case OtherFailure(e) => Err(e)
  }

  /** The loop of `download_input_files` from `acc` on.  It succeeds exactly
      when every declared input present downloads, and otherwise fails with
      the error of one that does not. */
  function DownloadEach(params: seq<Param>, inputs: map<string, Json>, acc: map<string, Json>,
                        workspace: string, download: Downloader): (r: Result<map<string, Json>, ErrorInfo>)
    requires acc.Keys == inputs.Keys
    ensures r.Ok? ==> r.value.Keys == inputs.Keys
    ensures r.Ok? ==> forall k :: k in inputs && !DeclaresInputFile(params, k) ==> r.value[k] == acc[k]
    ensures r.Ok? ==> forall k :: k in inputs && DeclaresInputFile(params, k) ==>
              inputs[k].JStr? && ParseS3Url(inputs[k].s).Ok? &&
              r.value[k] == JStr(LocalInputPath(workspace, k, ParseS3Url(inputs[k].s).value.key))
    ensures r.Ok? <==> forall k :: k in inputs && DeclaresInputFile(params, k) ==>
              Fetch(inputs, k, workspace, download).Ok?
    ensures r.Err? ==>
              exists k :: k in inputs && DeclaresInputFile(params, k) &&
                Fetch(inputs, k, workspace, download) == Err(r.error)
    decreases |params|
  {
    if params == [] then Ok(acc)
    else
      var p := params[0];
      DeclaresInputFileCons(params);
      if IsInputFile(p) && p.name.Some? && p.name.value in inputs then
        match Fetch(inputs, p.name.value, workspace, download)
        case Err(e) => Err(e)
        case Ok(local) => DownloadEach(params[1..], inputs, acc[p.name.value := local], workspace, download)
      else DownloadEach(params[1..], inputs, acc, workspace, download)
  }

  /** `download_input_files`: with no workspace root the inputs come back
      as given; otherwise each declared "InputFile" input present is
      downloaded and replaced by its local path, and every other entry is
      kept. */
  function DownloadInputFiles(hasRoot: bool, params: seq<Param>, inputs: map<string, Json>,
                              workspace: string, download: Downloader): (r: Result<map<string, Json>, ErrorInfo>)
    ensures !hasRoot ==> r == Ok(inputs)
    ensures r.Ok? ==> r.value.Keys == inputs.Keys
    ensures r.Ok? ==> forall k :: k in inputs && !DeclaresInputFile(params, k) ==> r.value[k] == inputs[k]
    ensures r.Ok? && hasRoot ==> forall k :: k in inputs && DeclaresInputFile(params, k) ==>
              inputs[k].JStr? && ParseS3Url(inputs[k].s).Ok? &&
              r.value[k] == JStr(LocalInputPath(workspace, k, ParseS3Url(inputs[k].s).value.key))
    ensures hasRoot ==> (r.Ok? <==> forall k :: k in inputs && DeclaresInputFile(params, k) ==>
              Fetch(inputs, k, workspace, download).Ok?)
    ensures r.Err? ==>
              exists k :: k in inputs && DeclaresInputFile(params, k) &&
                Fetch(inputs, k, workspace, download) == Err(r.error)
  {
    if !hasRoot then Ok(inputs) else DownloadEach(params, inputs, inputs, workspace, download)
  }

  /** `field_def.get("type") == "OutputFile" and field_name in output` holds
      for some property named `k`. */
  ghost predicate DeclaresOutputFile(props: seq<ReturnProp>, k: string) {
    exists i :: 0 <= i < |props| && IsOutputFile(props[i]) && props[i].name == k
  }

  /** A property list declares `k` when its head does or its tail does. */
  lemma DeclaresOutputFileCons(props: seq<ReturnProp>)
    requires props != []
    ensures forall k :: DeclaresOutputFile(props, k) <==>
              (IsOutputFile(props[0]) && props[0].name == k) || DeclaresOutputFile(props[1..], k)
  {
    forall k | DeclaresOutputFile(props[1..], k) ensures DeclaresOutputFile(props, k) {
      var i :| 0 <= i < |props[1..]| && IsOutputFile(props[1..][i]) && props[1..][i].name == k;
      assert props[i + 1] == props[1..][i];
    }
    forall k | DeclaresOutputFile(props, k) && !(IsOutputFile(props[0]) && props[0].name == k)
      ensures DeclaresOutputFile(props[1..], k)
    {
      var i :| 0 <= i < |props| && IsOutputFile(props[i]) && props[i].name == k;
      assert props[1..][i - 1] == props[i];
    }
  }

  /** The URL an output file is replaced by, for some unique id drawn at or
      after the `n`-th. */
  ghost predicate UploadedAs(v: Json, bucket: string, requestId: string, localPath: string,
                             freshId: nat -> string, n: nat) {
    exists j: nat :: n <= j && v == JStr(FormatS3Url(S3Location(bucket, UploadKey(requestId, freshId(j), localPath))))
  }

  /** `_upload_to_s3` after the existence check, for one output value and
      the unique id drawn for it: the s3:// URL that replaces the path, or
      the exception.  A value that is not a string cannot be made a `Path`
      (`TypeError`); a missing file is a `FileNotFoundError`; a `ClientError`
      of the transfer becomes a `RuntimeError`, and any other failure
      propagates. */
  function Put(v: Json, requestId: string, bucket: string, exists_: string -> bool, upload: Uploader,
               uniqueId: string): (r: Result<Json, ErrorInfo>)
    ensures r.Ok? ==> v.JStr? && exists_(v.s) &&
                      r.value == JStr(FormatS3Url(S3Location(bucket, UploadKey(requestId, uniqueId, v.s))))
    ensures !v.JStr? ==> r.Err? && r.error.typeName == "TypeError"
    ensures v.JStr? && !exists_(v.s) ==> r.Err? && r.error.typeName == "FileNotFoundError"
    ensures v.JStr? && exists_(v.s) ==>
              match upload(v.s, S3Location(bucket, UploadKey(requestId, uniqueId, v.s)))
              case Transferred => r.Ok?
              case ClientFailure(_) => r.Err? && r.error.typeName == "RuntimeError"
              case OtherFailure(e) => r == Err(e)
  {
    if !v.JStr? then
      Err(ErrorInfo("expected str, bytes or os.PathLike object, not " + TypeName(v), "TypeError"))
    else if !exists_(v.s) then
      Err(ErrorInfo("Output file not found: " + v.s, "FileNotFoundError"))
    else
      var loc := S3Location(bucket, UploadKey(requestId, uniqueId, v.s));
      match upload(v.s, loc)
      case ClientFailure(code) => Err(ErrorInfo("Failed to upload file to S3: " + code, "RuntimeError"))
      case OtherFailure(e) => Err(e)
      case Transferred => Ok(JStr(FormatS3Url(loc)))
  }

  /** The loop of `upload_output_files` from `acc` on; `n` unique ids have
      been drawn so far and `freshId(n)` is the next one.  It succeeds when
      every declared output present uploads under whatever id it is given,
      and a failure is the error of one declared output under some id. */
  function UploadEach(props: seq<ReturnProp>, output: map<string, Json>, acc: map<string, Json>,
                      requestId: string, bucket: string, exists_: string -> bool, upload: Uploader,
                      freshId: nat -> string, n: nat): (r: Result<map<string, Json>, ErrorInfo>)
    requires acc.Keys == output.Keys
    ensures r.Ok? ==> r.value.Keys == output.Keys
    ensures r.Ok? ==> forall k :: k in output && !DeclaresOutputFile(props, k) ==> r.value[k] == acc[k]
    ensures r.Ok? ==> forall k :: k in output && DeclaresOutputFile(props, k) ==>
              output[k].JStr? && exists_(output[k].s) &&
              UploadedAs(r.value[k], bucket, requestId, output[k].s, freshId, n)
    ensures (forall k, j: nat :: k in output && DeclaresOutputFile(props, k) && n <= j ==>
               Put(output[k], requestId, bucket, exists_, upload, freshId(j)).Ok?) ==> r.Ok?
    ensures r.Err? ==>
              exists k, j: nat :: k in output && DeclaresOutputFile(props, k) && n <= j &&
                Put(output[k], requestId, bucket, exists_, upload, freshId(j)) == Err(r.error)
    decreases |props|, 1
  {
    if props == [] then Ok(acc)
    else
      var p := props[0];
      DeclaresOutputFileCons(props);
      if IsOutputFile(p) && p.name in output then
        var v := output[p.name];
        match Put(v, requestId, bucket, exists_, upload, freshId(n))
        case Err(e) =>
          FailedStep(props, output, requestId, bucket, exists_, upload, freshId, n, e);
          Err(e)
        case Ok(url) =>
          var r := UploadEach(props[1..], output, acc[p.name := url], requestId, bucket,
                              exists_, upload, freshId, n + 1);
          assert UploadedAs(url, bucket, requestId, v.s, freshId, n);
          UploadedOutcome(props, output, acc, requestId, bucket, exists_, upload, freshId, n, url, r);
          if r.Ok? then
            UploadedStep(props, output, acc, requestId, bucket, exists_, freshId, n, url, r.value);
            r
          else r
      else
        var r := UploadEach(props[1..], output, acc, requestId, bucket, exists_, upload, freshId, n);
        SkippedStep(props, output, acc, requestId, bucket, exists_, upload, freshId, n, r);
        r
  }

  /** A declared output uploaded under the `n`-th id as `url`, followed by
      the rest of the loop from the next id on, leaves the map the whole
      loop promises. */
  lemma UploadedStep(props: seq<ReturnProp>, output: map<string, Json>, acc: map<string, Json>,
                     requestId: string, bucket: string, exists_: string -> bool,
                     freshId: nat -> string, n: nat, url: Json, m: map<string, Json>)
    requires acc.Keys == output.Keys && m.Keys == output.Keys
    requires props != [] && IsOutputFile(props[0]) && props[0].name in output
    requires var v := output[props[0].name];
             v.JStr? && exists_(v.s) && UploadedAs(url, bucket, requestId, v.s, freshId, n)
    requires forall k :: k in output && !DeclaresOutputFile(props[1..], k) ==>
               m[k] == acc[props[0].name := url][k]
    requires forall k :: k in output && DeclaresOutputFile(props[1..], k) ==>
               output[k].JStr? && exists_(output[k].s) &&
               UploadedAs(m[k], bucket, requestId, output[k].s, freshId, n + 1)
    ensures forall k :: k in output && !DeclaresOutputFile(props, k) ==> m[k] == acc[k]
    ensures forall k :: k in output && DeclaresOutputFile(props, k) ==>
              output[k].JStr? && exists_(output[k].s) &&
              UploadedAs(m[k], bucket, requestId, output[k].s, freshId, n)
  {
    DeclaresOutputFileCons(props);
    forall k | k in output && DeclaresOutputFile(props[1..], k)
      ensures UploadedAs(m[k], bucket, requestId, output[k].s, freshId, n)
    {
      UploadedAsLater(m[k], bucket, requestId, output[k].s, freshId, n);
    }
  }

  /** An output uploaded under an id drawn after the `n + 1`-th was drawn
      after the `n`-th too. */
  lemma UploadedAsLater(v: Json, bucket: string, requestId: string, localPath: string,
                        freshId: nat -> string, n: nat)
    requires UploadedAs(v, bucket, requestId, localPath, freshId, n + 1)
    ensures UploadedAs(v, bucket, requestId, localPath, freshId, n)
  {
    var j: nat :| n + 1 <= j && v == JStr(FormatS3Url(S3Location(bucket, UploadKey(requestId, freshId(j), localPath))));
  }

  /** ... and it fails exactly as the whole loop may: the rest of the loop
      fails only with the error of a declared output under a later id. */
  lemma UploadedOutcome(props: seq<ReturnProp>, output: map<string, Json>, acc: map<string, Json>,
                        requestId: string, bucket: string, exists_: string -> bool, upload: Uploader,
                        freshId: nat -> string, n: nat, url: Json, r: Result<map<string, Json>, ErrorInfo>)
    requires acc.Keys == output.Keys
    requires props != [] && IsOutputFile(props[0]) && props[0].name in output
    requires Put(output[props[0].name], requestId, bucket, exists_, upload, freshId(n)) == Ok(url)
    requires r == UploadEach(props[1..], output, acc[props[0].name := url], requestId, bucket,
                             exists_, upload, freshId, n + 1)
    ensures (forall k, j: nat :: k in output && DeclaresOutputFile(props, k) && n <= j ==>
               Put(output[k], requestId, bucket, exists_, upload, freshId(j)).Ok?) ==> r.Ok?
    ensures r.Err? ==>
              exists k, j: nat :: k in output && DeclaresOutputFile(props, k) && n <= j &&
                Put(output[k], requestId, bucket, exists_, upload, freshId(j)) == Err(r.error)
    decreases |props|, 0
  {
    DeclaresOutputFileCons(props);
  }

  /** A declared output whose upload fails under the `n`-th id stops the
      loop with that error. */
  lemma FailedStep(props: seq<ReturnProp>, output: map<string, Json>,
                   requestId: string, bucket: string, exists_: string -> bool, upload: Uploader,
                   freshId: nat -> string, n: nat, e: ErrorInfo)
    requires props != [] && IsOutputFile(props[0]) && props[0].name in output
    requires Put(output[props[0].name], requestId, bucket, exists_, upload, freshId(n)) == Err(e)
    ensures !forall k, j: nat :: k in output && DeclaresOutputFile(props, k) && n <= j ==>
               Put(output[k], requestId, bucket, exists_, upload, freshId(j)).Ok?
    ensures exists k, j: nat :: k in output && DeclaresOutputFile(props, k) && n <= j &&
              Put(output[k], requestId, bucket, exists_, upload, freshId(j)) == Err(e)
  {
    assert DeclaresOutputFile(props, props[0].name);
  }

  /** A property that is not a declared output present in `output` leaves the
      loop's promise to the rest of the properties. */
  lemma SkippedStep(props: seq<ReturnProp>, output: map<string, Json>, acc: map<string, Json>,
                    requestId: string, bucket: string, exists_: string -> bool, upload: Uploader,
                    freshId: nat -> string, n: nat, r: Result<map<string, Json>, ErrorInfo>)
    requires acc.Keys == output.Keys
    requires props != [] && !(IsOutputFile(props[0]) && props[0].name in output)
    requires r == UploadEach(props[1..], output, acc, requestId, bucket, exists_, upload, freshId, n)
    ensures r.Ok? ==> r.value.Keys == output.Keys
    ensures r.Ok? ==> forall k :: k in output && !DeclaresOutputFile(props, k) ==> r.value[k] == acc[k]
    ensures r.Ok? ==> forall k :: k in output && DeclaresOutputFile(props, k) ==>
              output[k].JStr? && exists_(output[k].s) &&
              UploadedAs(r.value[k], bucket, requestId, output[k].s, freshId, n)
    ensures (forall k, j: nat :: k in output && DeclaresOutputFile(props, k) && n <= j ==>
               Put(output[k], requestId, bucket, exists_, upload, freshId(j)).Ok?) ==> r.Ok?
    ensures r.Err? ==>
              exists k, j: nat :: k in output && DeclaresOutputFile(props, k) && n <= j &&
                Put(output[k], requestId, bucket, exists_, upload, freshId(j)) == Err(r.error)
    decreases |props|, 0
  {
    DeclaresOutputFileCons(props);
  }

  /** `upload_output_files`: with no workspace root the output comes back as
      given; otherwise each declared "OutputFile" field present must name an
      existing file, which is uploaded and replaced by its s3:// URL, and
      every other field is kept. */
  function UploadOutputFiles(hasRoot: bool, props: seq<ReturnProp>, output: map<string, Json>,
                             requestId: string, bucket: string, exists_: string -> bool, upload: Uploader,
                             freshId: nat -> string): (r: Result<map<string, Json>, ErrorInfo>)
    ensures !hasRoot ==> r == Ok(output)
    ensures r.Ok? ==> r.value.Keys == output.Keys
    ensures r.Ok? ==> forall k :: k in output && !DeclaresOutputFile(props, k) ==> r.value[k] == output[k]
    ensures r.Ok? && hasRoot ==> forall k :: k in output && DeclaresOutputFile(props, k) ==>
              output[k].JStr? && exists_(output[k].s) &&
              UploadedAs(r.value[k], bucket, requestId, output[k].s, freshId, 0)
    ensures (forall k, j: nat :: k in output && DeclaresOutputFile(props, k) ==>
               Put(output[k], requestId, bucket, exists_, upload, freshId(j)).Ok?) ==> r.Ok?
    ensures r.Err? ==>
              exists k, j: nat :: k in output && DeclaresOutputFile(props, k) &&
                Put(output[k], requestId, bucket, exists_, upload, freshId(j)) == Err(r.error)
  {
    if !hasRoot then Ok(output) else UploadEach(props, output, output, requestId, bucket, exists_, upload, freshId, 0)
  }

  /** A declared output file that does not exist makes the upload fail,
      whatever the transfers do. */
  lemma MissingOutputFileFails(props: seq<ReturnProp>, output: map<string, Json>, requestId: string,
                               bucket: string, exists_: string -> bool, upload: Uploader,
                               freshId: nat -> string, k: string)
    requires k in output && DeclaresOutputFile(props, k)
    requires output[k].JStr? && !exists_(output[k].s)
    ensures UploadOutputFiles(true, props, output, requestId, bucket, exists_, upload, freshId).Err?
  {
  }

  // ---------------------------------------------------------------------
  // Workspaces
  // ---------------------------------------------------------------------

  /** A top-level entry of the workspace root. */
  datatype Entry = Entry(isDir: bool, mtime: int, size: nat)

  type Listing = map<string, Entry>

  /** `create_workspace`: fails without a root; a falsy job id is replaced
      by a fresh id; an existing directory is reused, an existing file makes
      `mkdir` raise, and otherwise a new empty directory appears. */
  function CreateWorkspace(root: Option<string>, listing: Listing, jobId: Option<string>, freshId: string, now: int)
    : (r: Result<(string, Listing), ErrorInfo>)
    ensures root.None? ==> r.Err? && r.error.typeName == "RuntimeError"
    ensures r.Ok? ==> var name := if jobId.Some? && jobId.value != "" then jobId.value else freshId;
              root.Some? && r.value.0 == root.value + "/" + name &&
              name in r.value.1 && r.value.1[name].isDir &&
              r.value.1.Keys == listing.Keys + {name} &&
              (forall k :: k in listing && k != name ==> r.value.1[k] == listing[k]) &&
              (name in listing ==> r.value.1 == listing)
    ensures r.Err? && root.Some? ==> var name := if jobId.Some? && jobId.value != "" then jobId.value else freshId;
              name in listing && !listing[name].isDir
  {
    if root.None? then Err(ErrorInfo("PVC not mounted, cannot create workspace", "RuntimeError"))
    else
      var name := if jobId.Some? && jobId.value != "" then jobId.value else freshId;
      var path := root.value + "/" + name;
      if name in listing && !listing[name].isDir then Err(ErrorInfo("[Errno 17] File exists: '" + path + "'", "FileExistsError"))
      else if name in listing then Ok((path, listing))
      else Ok((path, listing[name := Entry(true, now, 0)]))
  }

  /** `cleanup_workspace`: never raises.  An existing directory goes away
      when `rmtree` succeeds; a failure is only logged, and a file, an
      absent path or no path at all leaves everything as it was. */
  function CleanupWorkspace(listing: Listing, name: Option<string>, rmtreeSucceeds: bool): (r: Listing)
    ensures name.Some? && name.value in listing && listing[name.value].isDir && rmtreeSucceeds ==>
              r.Keys == listing.Keys - {name.value}
    ensures !(name.Some? && name.value in listing && listing[name.value].isDir && rmtreeSucceeds) ==> r == listing
    ensures forall k :: k in r ==> k in listing && r[k] == listing[k]
  {
    if name.Some? && name.value in listing && listing[name.value].isDir && rmtreeSucceeds then
      listing - {name.value}
    else listing
  }

  /** A workspace created and then cleaned up successfully leaves the root
      as it was before, when its name was new. */
  lemma CreateThenCleanup(root: string, listing: Listing, jobId: string, freshId: string, now: int)
    requires jobId != "" && jobId !in listing
    ensures var r := CreateWorkspace(Some(root), listing, Some(jobId), freshId, now);
            r.Ok? && CleanupWorkspace(r.value.1, Some(jobId), true) == listing
  {
    var r := CreateWorkspace(Some(root), listing, Some(jobId), freshId, now);
    assert r.value.1 - {jobId} == listing;
  }

  // ---------------------------------------------------------------------
  // The periodic sweep
  // ---------------------------------------------------------------------

  /** An entry of the root as `iterdir` yields it. */
  datatype DirEntry = DirEntry(name: string, isDir: bool, mtime: int, size: nat)

  /** A directory last modified before the cut-off (`now - max_age`). */
  predicate Expired(e: DirEntry, cutoff: int) {
    e.isDir && e.mtime < cutoff
  }

  /** The entries a complete sweep keeps, in order: files and directories
      that are not expired. */
  function Survivors(es: seq<DirEntry>, cutoff: int): (r: seq<DirEntry>)
    ensures |r| <= |es|
  {
    if es == [] then []
    else Survivors(es[..|es| - 1], cutoff) + (if Expired(es[|es| - 1], cutoff) then [] else [es[|es| - 1]])
  }

  /** A complete sweep keeps exactly the entries that are not expired
      directories. */
  lemma {:induction false} SurvivorsExactly(es: seq<DirEntry>, cutoff: int, e: DirEntry)
    ensures e in Survivors(es, cutoff) <==> e in es && !Expired(e, cutoff)
  {
    if es != [] {
      var init := es[..|es| - 1];
      SurvivorsExactly(init, cutoff, e);
      assert es == init + [es[|es| - 1]];
    }
  }

  /** How many directories a complete sweep removes. */
  function ExpiredCount(es: seq<DirEntry>, cutoff: int): (n: nat)
    ensures n + |Survivors(es, cutoff)| == |es|
  {
    if es == [] then 0
    else ExpiredCount(es[..|es| - 1], cutoff) + (if Expired(es[|es| - 1], cutoff) then 1 else 0)
  }

  /** The bytes the expired directories among `es` held. */
  function ExpiredSize(es: seq<DirEntry>, cutoff: int): nat {
    if es == [] then 0
    else ExpiredSize(es[..|es| - 1], cutoff) + (if Expired(es[|es| - 1], cutoff) then es[|es| - 1].size else 0)
  }

  /** The sweep totals of a prefix one entry longer. */
  lemma SweepStep(entries: seq<DirEntry>, i: nat, cutoff: int)
    requires i < |entries|
    ensures var e := entries[i];
            Survivors(entries[..i + 1], cutoff) == Survivors(entries[..i], cutoff) + (if Expired(e, cutoff) then [] else [e]) &&
            ExpiredCount(entries[..i + 1], cutoff) == ExpiredCount(entries[..i], cutoff) + (if Expired(e, cutoff) then 1 else 0) &&
            ExpiredSize(entries[..i + 1], cutoff) == ExpiredSize(entries[..i], cutoff) + (if Expired(e, cutoff) then e.size else 0)
  {
    assert entries[..i + 1][..i] == entries[..i];
    assert entries[..i + 1][i] == entries[i];
  }

  /** Some expired directory among `entries` cannot be removed. */
  ghost predicate SomeRemovalFails(entries: seq<DirEntry>, cutoff: int, rmtreeFails: string -> bool) {
    exists i :: 0 <= i < |entries| && Expired(entries[i], cutoff) && rmtreeFails(entries[i].name)
  }

  /** The loop of `_run_cleanup`: every expired directory is measured and
      removed, in listing order.  A failing `rmtree` raises out of the loop,
      so the sweep stops at that directory (`failedAt`), its size already
      counted, and the entries after it stay. */
  method Sweep(entries: seq<DirEntry>, cutoff: int, rmtreeFails: string -> bool)
    returns (kept: seq<DirEntry>, removed: nat, freed: nat, failedAt: Option<nat>)
    ensures failedAt.None? ==> kept == Survivors(entries, cutoff) && removed == ExpiredCount(entries, cutoff) &&
                               freed == ExpiredSize(entries, cutoff)
    ensures failedAt.None? ==> forall i :: 0 <= i < |entries| && Expired(entries[i], cutoff) ==>
                                 !rmtreeFails(entries[i].name)
    ensures failedAt.Some? ==> failedAt.value < |entries| && Expired(entries[failedAt.value], cutoff) &&
                               rmtreeFails(entries[failedAt.value].name)
    ensures failedAt.Some? ==> forall i :: 0 <= i < failedAt.value && Expired(entries[i], cutoff) ==>
                                 !rmtreeFails(entries[i].name)
    ensures failedAt.Some? ==> kept == Survivors(entries[..failedAt.value], cutoff) + entries[failedAt.value..] &&
                               removed == ExpiredCount(entries[..failedAt.value], cutoff) &&
                               freed == ExpiredSize(entries[..failedAt.value + 1], cutoff)
    ensures failedAt.Some? <==> SomeRemovalFails(entries, cutoff, rmtreeFails)
  {
    kept, removed, freed, failedAt := [], 0, 0, None;
    var i := 0;
    while i < |entries|
      invariant 0 <= i <= |entries|
      invariant kept == Survivors(entries[..i], cutoff)
      invariant removed == ExpiredCount(entries[..i], cutoff)
      invariant freed == ExpiredSize(entries[..i], cutoff)
      invariant forall j :: 0 <= j < i && Expired(entries[j], cutoff) ==> !rmtreeFails(entries[j].name)
    {
      var e := entries[i];
      SweepStep(entries, i, cutoff);
      if Expired(e, cutoff) {
        freed := freed + e.size;
        if rmtreeFails(e.name) {
          kept := kept + entries[i..];
          failedAt := Some(i);
          return;
        }
        removed := removed + 1;
      } else {
        kept := kept + [e];
      }
      i := i + 1;
    }
    assert entries[..i] == entries;
  }

  /** A prefix holds no more expired directories than the whole. */
  lemma {:induction false} ExpiredCountGrows(es: seq<DirEntry>, i: nat, cutoff: int)
    requires i <= |es|
    ensures ExpiredCount(es[..i], cutoff) <= ExpiredCount(es, cutoff)
    decreases |es| - i
  {
    if i < |es| {
      SweepStep(es, i, cutoff);
      ExpiredCountGrows(es, i + 1, cutoff);
    } else {
      assert es[..i] == es;
    }
  }

  /** The disk-usage levels the sweep reports. */
  datatype DiskLevel = Normal | High | Critical

  function Rank(l: DiskLevel): nat {
    match l
    case Normal => 0
    case High => 1
    case Critical => 2
  }

  /** `usage.used / usage.total * 100` compared with 80 and 90, as integer
      ratios; a zero total divides by zero. */
  function ClassifyDisk(used: nat, total: nat): (r: Result<DiskLevel, ErrorInfo>)
    ensures r.Err? <==> total == 0
    ensures r == Ok(Critical) <==> total > 0 && used * 100 > 90 * total
    ensures r == Ok(High) <==> total > 0 && 80 * total < used * 100 <= 90 * total
    ensures r == Ok(Normal) <==> total > 0 && used * 100 <= 80 * total
  {
    if total == 0 then Err(ErrorInfo("division by zero", "ZeroDivisionError"))
    else if used * 100 > 90 * total then Ok(Critical)
    else if used * 100 > 80 * total then Ok(High)
    else Ok(Normal)
  }

  /** More usage of the same disk never lowers the level. */
  lemma ClassifyMonotone(u1: nat, u2: nat, total: nat)
    requires total > 0 && u1 <= u2
    ensures Rank(ClassifyDisk(u1, total).value) <= Rank(ClassifyDisk(u2, total).value)
  {
    assert u1 * 100 <= u2 * 100;
  }

  /** A sweep stopped at index `j` still keeps every entry that is not an
      expired directory. */
  lemma StoppedSweepKeeps(entries: seq<DirEntry>, cutoff: int, j: nat, e: DirEntry)
    requires j <= |entries|
    requires e in entries && !Expired(e, cutoff)
    ensures e in Survivors(entries[..j], cutoff) + entries[j..]
  {
    var i :| 0 <= i < |entries| && entries[i] == e;
    if i < j {
      assert e == entries[..j][i];
      SurvivorsExactly(entries[..j], cutoff, e);
    } else {
      assert e == entries[j..][i - j];
    }
  }

  /** Whatever index a sweep stops at, every entry that is not an expired
      directory is among those it keeps. */
  lemma StoppedSweepKeepsAll(entries: seq<DirEntry>, cutoff: int, j: nat, kept: seq<DirEntry>)
    requires j <= |entries| && kept == Survivors(entries[..j], cutoff) + entries[j..]
    ensures forall e :: e in entries && !Expired(e, cutoff) ==> e in kept
  {
    forall e | e in entries && !Expired(e, cutoff) ensures e in kept {
      StoppedSweepKeeps(entries, cutoff, j, e);
    }
  }

  /** A sweep stopped at an expired directory has removed fewer directories
      than a complete one would. */
  lemma StoppedSweepRemovesFewer(entries: seq<DirEntry>, cutoff: int, j: nat)
    requires j < |entries| && Expired(entries[j], cutoff)
    ensures ExpiredCount(entries[..j], cutoff) < ExpiredCount(entries, cutoff)
  {
    SweepStep(entries, j, cutoff);
    ExpiredCountGrows(entries, j + 1, cutoff);
  }

  /** One run of `_run_cleanup`: nothing happens without a root; otherwise
      the sweep runs and, when it finished, the disk is classified.  Any
      exception in between ends the run, so a failed sweep reports no
      level. */
  method RunCleanup(rootExists: bool, entries: seq<DirEntry>, now: int, maxAge: int,
                    rmtreeFails: string -> bool, used: nat, total: nat)
    returns (kept: seq<DirEntry>, removed: nat, level: Option<DiskLevel>)
    ensures !rootExists ==> kept == entries && removed == 0 && level.None?
    ensures rootExists ==> forall e :: e in entries && !Expired(e, now - maxAge) ==> e in kept
    ensures level.Some? ==> rootExists && kept == Survivors(entries, now - maxAge) &&
                            ClassifyDisk(used, total) == Ok(level.value)
    ensures rootExists && !SomeRemovalFails(entries, now - maxAge, rmtreeFails) ==>
              kept == Survivors(entries, now - maxAge) && removed == ExpiredCount(entries, now - maxAge) &&
              (level.Some? <==> ClassifyDisk(used, total).Ok?)
    ensures rootExists && SomeRemovalFails(entries, now - maxAge, rmtreeFails) ==>
              level.None? && removed < ExpiredCount(entries, now - maxAge)
  {
    if !rootExists {
      return entries, 0, None;
    }
    var freed, failedAt;
    kept, removed, freed, failedAt := Sweep(entries, now - maxAge, rmtreeFails);
    if failedAt.Some? {
      StoppedSweepKeepsAll(entries, now - maxAge, failedAt.value, kept);
      StoppedSweepRemovesFewer(entries, now - maxAge, failedAt.value);
      return kept, removed, None;
    }
    assert entries[..|entries|] == entries && entries[|entries|..] == [];
    StoppedSweepKeepsAll(entries, now - maxAge, |entries|, kept);
    var c := ClassifyDisk(used, total);
    level := if c.Ok? then Some(c.value) else None;
  }
}

=== FILE: json.dfy ===
/** Decoded JSON values as the gateway's Python code sees them: request
    inputs, downstream outputs and webhook payloads all arrive as such
    values.  The module fixes the three Python behaviours the gateway relies
    on: truthiness (`if not x`), `isinstance` (where a bool is also an int)
    and hashing (where `True`, `1` and `1.0` are the same set element). */
module Json {
  import opened Wrappers

  datatype Json =
    | JNull
    | JBool(b: bool)
    | JInt(i: int)
    | JFloat(x: real)
    | JStr(s: string)
    | JArray(items: seq<Json>)
    | JObject(fields: map<string, Json>)

  /** Python truthiness: `None`, `False`, zero, and empty strings, lists and
      dicts are false. */
  predicate Truthy(v: Json) {
    match v
    case JNull => false
    case JBool(b) => b
    case JInt(i) => i != 0
    case JFloat(x) => x != 0.0
    case JStr(s) => |s| > 0
    case JArray(xs) => |xs| > 0
    case JObject(m) => |m| > 0
  }

  /** `type(v).__name__` of the Python object `json` decodes `v` into. */
  function TypeName(v: Json): string {
    match v
    case JNull => "NoneType"
    case JBool(_) => "bool"
    case JInt(_) => "int"
    case JFloat(_) => "float"
    case JStr(_) => "str"
    case JArray(_) => "list"
    case JObject(_) => "dict"
  }

  /** A Python exception as the gateway reports it: `str(e)` and
      `type(e).__name__`, the two entries of a failed call's `error`. */
  datatype ErrorInfo = ErrorInfo(message: string, typeName: string)

  /** The Python classes the gateway passes to `isinstance`. */
  datatype PyClass = StrClass | IntClass | FloatClass | BoolClass | ListClass | DictClass

  /** `isinstance(v, cls)`.  `bool` is a subclass of `int`, so a boolean is
      an instance of `IntClass` as well as of `BoolClass`. */
  predicate IsInstance(v: Json, cls: PyClass) {
    match cls
    case StrClass => v.JStr?
    case IntClass => v.JInt? || v.JBool?
    case FloatClass => v.JFloat?
    case BoolClass => v.JBool?
    case ListClass => v.JArray?
    case DictClass => v.JObject?
  }

  /** The identity a hashable value has as a member of a Python set: equal
      numbers are one element whatever their type (`True == 1 == 1.0`). */
  datatype HashKey = KNone | KNum(n: real) | KStr(s: string)

  /** The set element a value becomes, or `None` for the unhashable `list`
      and `dict` (adding or testing them raises `TypeError`). */
  function Hash(v: Json): (r: Option<HashKey>)
    ensures r.None? <==> v.JArray? || v.JObject?
    ensures v.JStr? ==> r == Some(KStr(v.s))
  {
    match v
    case JNull => Some(KNone)
    case JBool(b) => Some(KNum(if b then 1.0 else 0.0))
    case JInt(i) => Some(KNum(i as real))
    case JFloat(x) => Some(KNum(x))
    case JStr(s) => Some(KStr(s))
    case JArray(_) => None
    case JObject(_) => None
  }
}

=== FILE: manifest.dfy ===
/** The shape of a prefab spec (the unit's manifest) as the gateway reads it.
    The gateway reads specs with `dict.get(key, default)`, so every field
    whose absence changes the outcome is an `Option`; fields whose absence
    reads the same as an empty value are plain sequences.  A function entry
    keeps only the keys the gateway reads. */
module Manifest {
  import opened Wrappers
  import opened Json

  /** An entry of a function's `parameters`: `name`, `type` (validation
      defaults it to "string", the file checks compare it without a
      default) and `required` (defaults to true). */
  datatype Param = Param(name: Option<string>, ptype: Option<string>, required: Option<bool>)

  /** An entry of a function's `secrets`: `name` and `required` (defaults to
      true). */
  datatype SecretDecl = SecretDecl(name: Option<string>, required: Option<bool>)

  /** One item of `returns.properties`, in the dict's insertion order. */
  datatype ReturnProp = ReturnProp(name: string, ptype: Option<string>)

  datatype FunctionDef = FunctionDef(
    name: Option<string>,
    description: Option<Json>,
    parameters: seq<Param>,
    returnProps: seq<ReturnProp>,
    secrets: seq<SecretDecl>)

  /** A spec document: the five keys the gateway reads, and every other
      top-level key in `others`. */
  datatype Spec = Spec(
    id: Option<Json>,
    version: Option<Json>,
    name: Option<Json>,
    description: Option<Json>,
    functions: Option<seq<FunctionDef>>,
    others: map<string, Json>)

  /** `not spec` for a dict: a spec without any key. */
  predicate IsEmpty(s: Spec) {
    s.id.None? && s.version.None? && s.name.None? && s.description.None? &&
    s.functions.None? && s.others == map[]
  }

  /** `spec.get("functions", [])`. */
  function Functions(s: Spec): seq<FunctionDef> {
    s.functions.GetOr([])
  }

  const InputFileType: string := "InputFile"
  const OutputFileType: string := "OutputFile"

  /** `param.get("type") == "InputFile"`. */
  predicate IsInputFile(p: Param) {
    p.ptype == Some(InputFileType)
  }

  /** `field_def.get("type") == "OutputFile"`. */
  predicate IsOutputFile(p: ReturnProp) {
    p.ptype == Some(OutputFileType)
  }
}

=== FILE: prefabs.dfy ===
/** The spec endpoints (app/routers/prefabs.py): reading a prefab's
    interface through a fixed projection of the cached spec, and caching a
    spec. */
module Prefabs {
  import opened Wrappers
  import opened Json
  import opened Manifest
  import SpecCache
  import Auth

  /** The answer of `get_prefab_spec`: exactly these five keys. */
  datatype SpecView = SpecView(id: Json, version: Json, name: Json, description: Json, functions: seq<FunctionDef>)

  /** `get_prefab_spec`: 404 for a missing or empty spec; otherwise the
      five keys, each defaulted when the spec lacks it (to the path's id and
      version, to "" for the name and description, to no functions). */
  function GetPrefabSpec(cache: SpecCache.Cache, prefabId: string, version: string): (r: Result<SpecView, int>)
    ensures r.Err? <==> SpecCache.GetSpec(cache, prefabId, version).None?
    ensures r.Err? ==> r.error == 404
    ensures r.Ok? ==> var s := SpecCache.GetSpec(cache, prefabId, version).value;
              (s.id.Some? ==> r.value.id == s.id.value) && (s.id.None? ==> r.value.id == JStr(prefabId)) &&
              (s.version.Some? ==> r.value.version == s.version.value) &&
              (s.version.None? ==> r.value.version == JStr(version)) &&
              (s.name.Some? ==> r.value.name == s.name.value) && (s.name.None? ==> r.value.name == JStr("")) &&
              (s.description.Some? ==> r.value.description == s.description.value) &&
              (s.description.None? ==> r.value.description == JStr("")) &&
              r.value.functions == Functions(s)
  {
    match SpecCache.GetSpec(cache, prefabId, version)
    case None => Err(404)
    case Some(s) =>
      Ok(SpecView(s.id.GetOr(JStr(prefabId)), s.version.GetOr(JStr(version)),
                  s.name.GetOr(JStr("")), s.description.GetOr(JStr("")), Functions(s)))
  }

  /** Keys outside the five never reach the answer: specs that differ only
      in them read the same. */
  lemma ProjectionIgnoresOtherKeys(cache: SpecCache.Cache, user: Auth.User, prefabId: string, version: string,
                                   s1: Manifest.Spec, s2: Manifest.Spec)
    requires !IsEmpty(s1) && !IsEmpty(s2)
    requires s1.(others := map[]) == s2.(others := map[])
    ensures GetPrefabSpec(CachePrefabSpec(cache, user, prefabId, version, s1), prefabId, version) ==
            GetPrefabSpec(CachePrefabSpec(cache, user, prefabId, version, s2), prefabId, version)
  {
    assert s1.id == s2.id && s1.version == s2.version && s1.name == s2.name;
    assert s1.description == s2.description && s1.functions == s2.functions;
  }

  /** `cache_prefab_spec`: stores the spec under (prefab, version).  The
      caller's identity plays no part: there is no admin check. */
  function CachePrefabSpec(cache: SpecCache.Cache, user: Auth.User, prefabId: string, version: string,
                           spec: Manifest.Spec): (r: SpecCache.Cache)
    ensures r.Keys == cache.Keys + {SpecCache.MakeKey(prefabId, version)}
    ensures r[SpecCache.MakeKey(prefabId, version)] == spec
    ensures forall k :: k in cache && k != SpecCache.MakeKey(prefabId, version) ==> r[k] == cache[k]
  {
    SpecCache.SetSpec(cache, prefabId, version, spec).0
  }

  /** A GET after a POST answers the projection of the posted spec, for any
      user who posted it; posting an empty spec makes the GET a 404. */
  lemma GetAfterPost(cache: SpecCache.Cache, u1: Auth.User, u2: Auth.User, prefabId: string, version: string,
                     spec: Manifest.Spec)
    ensures CachePrefabSpec(cache, u1, prefabId, version, spec) == CachePrefabSpec(cache, u2, prefabId, version, spec)
    ensures var got := GetPrefabSpec(CachePrefabSpec(cache, u1, prefabId, version, spec), prefabId, version);
            (IsEmpty(spec) ==> got == Err(404)) &&
            (!IsEmpty(spec) ==> got == Ok(SpecView(spec.id.GetOr(JStr(prefabId)), spec.version.GetOr(JStr(version)),
                                                   spec.name.GetOr(JStr("")), spec.description.GetOr(JStr("")),
                                                   Functions(spec))))
  {
    SpecCache.GetAfterSet(cache, prefabId, version, spec);
  }
}

=== FILE: records.dfy ===
/** The persistent record shapes of the gateway (db/models.py): the two
    status enumerations, the rows of the secret, spec and webhook-event
    tables with the defaults a fresh row receives, and the unique indexes
    those tables declare.  Timestamps are plain integers supplied by the
    caller (the database's `now()`). */
module Records {
  import opened Wrappers
  import opened Json

  datatype SecretStatus = Active | Disabled | Expired

  datatype DeploymentStatus = Pending | Building | Deploying | Deployed | Failed

  /** The value each status is stored as. */
  function SecretStatusValue(s: SecretStatus): string {
    match s
    case Active => "active"
    case Disabled => "disabled"
    case Expired => "expired"
  }

  function DeploymentStatusValue(s: DeploymentStatus): string {
    match s
    case Pending => "pending"
    case Building => "building"
    case Deploying => "deploying"
    case Deployed => "deployed"
    case Failed => "failed"
  }

  const AllSecretStatuses: set<SecretStatus> := {Active, Disabled, Expired}

  const AllDeploymentStatuses: set<DeploymentStatus> :=
    {Pending, Building, Deploying, Deployed, Failed}

  /** The enumerations have exactly three and five members, and their
      stored values tell them apart. */
  lemma EnumerationsComplete()
    ensures forall s: SecretStatus :: s in AllSecretStatuses
    ensures forall d: DeploymentStatus :: d in AllDeploymentStatuses
    ensures |AllSecretStatuses| == 3 && |AllDeploymentStatuses| == 5
    ensures forall s1: SecretStatus, s2: SecretStatus ::
      SecretStatusValue(s1) == SecretStatusValue(s2) ==> s1 == s2
    ensures forall d1: DeploymentStatus, d2: DeploymentStatus ::
      DeploymentStatusValue(d1) == DeploymentStatusValue(d2) ==> d1 == d2
  {
    forall s: SecretStatus ensures s in AllSecretStatuses {
      assert s.Active? || s.Disabled? || s.Expired?;
    }
    forall d: DeploymentStatus ensures d in AllDeploymentStatuses {
      assert d.Pending? || d.Building? || d.Deploying? || d.Deployed? || d.Failed?;
    }
    assert |{Active, Disabled}| == 2;
    assert |{Pending, Building}| == 2;
    assert |{Pending, Building, Deploying}| == 3;
    assert |{Pending, Building, Deploying, Deployed}| == 4;
  }

  /** A row of `user_secrets`. */
  datatype UserSecret = UserSecret(
    userId: string,
    prefabId: string,
    secretName: string,
    secretValue: string,
    encryptionKeyId: Option<string>,
    status: SecretStatus,
    description: Option<string>,
    createdAt: int,
    updatedAt: int,
    expiresAt: Option<int>,
    lastUsedAt: Option<int>)

  /** A row of `prefab_specs`. */
  datatype PrefabSpecRow = PrefabSpecRow(
    prefabId: string,
    version: string,
    specJson: Json,
    knativeServiceUrl: Option<string>,
    deploymentStatus: DeploymentStatus,
    artifactUrl: Option<string>,
    sourceRepo: Option<string>,
    createdAt: int,
    updatedAt: int,
    deployedAt: Option<int>,
    callCount: nat,
    lastCalledAt: Option<int>)

  /** A row of `webhook_events`. */
  datatype WebhookEvent = WebhookEvent(
    eventId: string,
    source: string,
    eventType: string,
    prefabId: string,
    version: string,
    payload: map<string, Json>,
    processed: bool,
    processedAt: Option<int>,
    processingError: Option<string>,
    retryCount: nat,
    createdAt: int,
    signature: Option<string>)

  /** A secret row as inserted with only the required columns given: the
      status defaults to active and the optional columns are null. */
  function NewUserSecret(userId: string, prefabId: string, secretName: string,
                         secretValue: string, now: int): (r: UserSecret)
    ensures r.status == Active
    ensures r.lastUsedAt.None? && r.expiresAt.None? && r.encryptionKeyId.None?
    ensures SecretKeyOf(r) == (userId, prefabId, secretName)
    ensures r.createdAt == r.updatedAt == now
  {
    UserSecret(userId, prefabId, secretName, secretValue, None, Active, None,
               now, now, None, None)
  }

  /** A spec row as first inserted: pending deployment, never called, never
      deployed. */
  function NewPrefabSpecRow(prefabId: string, version: string, specJson: Json,
                            now: int): (r: PrefabSpecRow)
    ensures r.deploymentStatus == Pending
    ensures r.callCount == 0 && r.lastCalledAt.None? && r.deployedAt.None?
    ensures r.knativeServiceUrl.None?
    ensures SpecKeyOf(r) == (prefabId, version)
  {
    PrefabSpecRow(prefabId, version, specJson, None, Pending, None, None,
                  now, now, None, 0, None)
  }

  /** A webhook-event row as first inserted: not processed, no retries, no
      processing time and no error. */
  function NewWebhookEvent(eventId: string, source: string, eventType: string,
                           prefabId: string, version: string,
                           payload: map<string, Json>, signature: Option<string>,
                           now: int): (r: WebhookEvent)
    ensures !r.processed && r.retryCount == 0
    ensures r.processedAt.None? && r.processingError.None?
    ensures r.eventId == eventId && r.payload == payload && r.signature == signature
  {
    WebhookEvent(eventId, source, eventType, prefabId, version, payload,
                 false, None, None, 0, now, signature)
  }

  /** The unique index of each table. */
  function SecretKeyOf(r: UserSecret): (string, string, string) {
    (r.userId, r.prefabId, r.secretName)
  }

  function SpecKeyOf(r: PrefabSpecRow): (string, string) {
    (r.prefabId, r.version)
  }

  function EventKeyOf(r: WebhookEvent): string {
    r.eventId
  }

  /** A table with a unique index, held as a map from index value to row;
      it is consistent when every row sits under its own index value. */
  ghost predicate KeyedBy<K, R>(t: map<K, R>, key: R -> K) {
    forall k :: k in t ==> key(t[k]) == k
  }

  datatype IntegrityError = DuplicateKey

  /** INSERT into a table with a unique index: a row whose index value is
      already taken is refused. */
  function Insert<K, R>(t: map<K, R>, key: R -> K, row: R): (r: Result<map<K, R>, IntegrityError>)
    ensures r.Err? <==> key(row) in t
    ensures r.Ok? ==> r.value.Keys == t.Keys + {key(row)} && r.value[key(row)] == row
    ensures r.Ok? ==> forall k :: k in t ==> r.value[k] == t[k]
    ensures r.Ok? && KeyedBy(t, key) ==> KeyedBy(r.value, key)
  {
    if key(row) in t then Err(DuplicateKey) else Ok(t[key(row) := row])
  }

  /** In a consistent table no two distinct rows share an index value. */
  lemma UniqueIndex<K, R>(t: map<K, R>, key: R -> K, r1: R, r2: R)
    requires KeyedBy(t, key)
    requires r1 in t.Values && r2 in t.Values
    requires key(r1) == key(r2)
    ensures r1 == r2
  {
    var k1 :| k1 in t && t[k1] == r1;
    var k2 :| k2 in t && t[k2] == r2;
    assert k1 == key(r1) == key(r2) == k2;
  }
}

=== FILE: run.dfy ===
/** The execution endpoint `/v1/run` (app/routers/run.py).  A batch of
    calls is processed one call at a time, in request order.  Each call goes
    through spec lookup, function resolution, input validation, the read
    check on `InputFile` inputs, secret resolution, the downstream
    invocation and the ownership grants for `OutputFile` outputs.

    Two kinds of failure leave a call's pipeline early.  An `HTTPException`
    (`Abort`) is re-raised by the batch loop and ends the whole request with
    that error.  Any other exception (`Raise`) becomes a `FAILED` result and
    the batch goes on.  Only the ACL changes state during a run; the spec
    cache and the vault are read. */
module Run {
  import opened Wrappers
  import opened Json
  import opened Text
  import opened Manifest
  import SpecCache
  import Acl
  import Vault

  /** `PrefabCall` (models/requests.py). */
  datatype Call = Call(prefabId: string, version: string, functionName: string, inputs: map<string, Json>)

  /** `CallStatus`, `CallResult` and `RunResponsePayload` (models/responses.py). */
  datatype CallStatus = SUCCESS | FAILED

  datatype CallResult = CallResult(status: CallStatus, output: Option<Json>, error: Option<ErrorInfo>)

  datatype RunResponse = RunResponse(jobId: string, status: string, results: seq<CallResult>)

  /** The `HTTPException`s the pipeline raises, with their status codes. */
  datatype HttpError =
    | SpecNotFound(prefabId: string, version: string)
    | FunctionNotFound(functionName: string, prefabId: string)
    | MissingParameter(param: Option<string>)
    | TypeMismatch(field: string, expected: string)
    | PermissionDenied(uri: Json)
    | SecretNotConfigured(secret: Option<string>, prefabId: string)
    | DownstreamStatus(code: int)
    | DownstreamTimeout
    | DownstreamFailure(message: string)
  {
    function StatusCode(): int {
      match this
      case SpecNotFound(_, _) => 404
      case FunctionNotFound(_, _) => 404
      case MissingParameter(_) => 422
      case TypeMismatch(_, _) => 422
      case PermissionDenied(_) => 403
      case SecretNotConfigured(_, _) => 400
      case DownstreamStatus(_) => 503
      case DownstreamTimeout => 503
      case DownstreamFailure(_) => 503
    }
  }

  /** How a step stops a call: an HTTP error aborts the batch, any other
      exception fails only this call. */
  datatype Stop = Abort(http: HttpError) | Raise(exc: ErrorInfo)

  /** What the downstream service did with the POST: answered with a JSON
      body, answered with an error status (`raise_for_status`), timed out, or
      failed in any other way (connection error, body that is not JSON). */
  datatype Reply = Answered(body: Json) | StatusError(code: int) | TimedOut | Broken(message: string)

  /** `knative_namespace` and `knative_domain_suffix` of the settings. */
  datatype Config = Config(namespace: string, domainSuffix: string)

  /** The read-only services a run consults. */
  datatype Services = Services(specs: SpecCache.Cache, vault: Vault.Store)

  type Ledger = Acl.Ledger<HashKey>

  /** The first failure that `check` reports along `xs`, scanning in order;
      `None` when every element passes.  Each of the pipeline's checking
      loops has this shape. */
  function FirstFailure<T, E>(xs: seq<T>, check: T -> Option<E>): (r: Option<E>)
    ensures r.None? <==> forall i :: 0 <= i < |xs| ==> check(xs[i]).None?
    ensures r.Some? ==> exists i :: 0 <= i < |xs| && check(xs[i]) == r &&
                          forall j :: 0 <= j < i ==> check(xs[j]).None?
  {
    if xs == [] then None
    else if check(xs[0]).Some? then check(xs[0])
    else
      var r := FirstFailure(xs[1..], check);
      assert forall i :: 1 <= i < |xs| ==> xs[i] == xs[1..][i - 1];
      r
  }

  /** The index of the first function named `name` (the loop breaks at the
      first match), or `None`. */
  function FindFunction(fs: seq<FunctionDef>, name: string): (r: Option<nat>)
    ensures r.Some? ==> r.value < |fs| && fs[r.value].name == Some(name)
    ensures r.Some? ==> forall j :: 0 <= j < r.value ==> fs[j].name != Some(name)
    ensures r.None? <==> forall j :: 0 <= j < |fs| ==> fs[j].name != Some(name)
  {
    if fs == [] then None
    else if fs[0].name == Some(name) then Some(0)
    else match FindFunction(fs[1..], name)
      case None => None
      case Some(i) => Some(i + 1)
  }

  // ---------------------------------------------------------------------
  // Input validation
  // ---------------------------------------------------------------------

  /** `type_check_map.get(param_type)`: the classes a value of a declared
      type must be an instance of; `None` for types the map does not list
      (such as "InputFile"), which are not checked. */
  function ExpectedClasses(ptype: string): Option<set<PyClass>> {
    if ptype == "string" then Some({StrClass})
    else if ptype == "number" then Some({IntClass, FloatClass})
    else if ptype == "integer" then Some({IntClass})
    else if ptype == "boolean" then Some({BoolClass})
    else if ptype == "array" then Some({ListClass})
    else if ptype == "object" then Some({DictClass})
    else None
  }

  /** `isinstance(value, expected_type)` with a tuple of classes. */
  predicate InstanceOfAny(v: Json, classes: set<PyClass>) {
    exists c :: c in classes && IsInstance(v, c)
  }

  /** The error the loop of `validate_inputs` raises for one parameter, if
      any: missing when required (by default), or present with a value of
      the wrong type. */
  function ParamError(inputs: map<string, Json>, p: Param): Option<HttpError> {
    var required := p.required.GetOr(true);
    var ptype := p.ptype.GetOr("string");
    if p.name.None? || p.name.value !in inputs then
      if required then Some(MissingParameter(p.name)) else None
    else match ExpectedClasses(ptype)
      case None => None
      case Some(classes) =>
        if InstanceOfAny(inputs[p.name.value], classes) then None
        else Some(TypeMismatch(p.name.value, ptype))
  }

  /** `validate_inputs`: the parameters are checked in declaration order and
      the first failing one raises 422. */
  function ValidateInputs(inputs: map<string, Json>, params: seq<Param>): (r: Option<HttpError>)
    ensures r.None? <==> forall i :: 0 <= i < |params| ==> ParamError(inputs, params[i]).None?
    ensures r.Some? ==> r.value.StatusCode() == 422
    ensures r.Some? ==> exists i :: 0 <= i < |params| && ParamError(inputs, params[i]) == r &&
                          forall j :: 0 <= j < i ==> ParamError(inputs, params[j]).None?
  {
    FirstFailure(params, p => ParamError(inputs, p))
  }

  /** A required parameter (the default) that is absent is refused, and a
      present parameter of a listed type whose value is not an instance of
      it is refused; nothing else is. */
  lemma ParamErrorCases(inputs: map<string, Json>, p: Param)
    ensures ParamError(inputs, p).Some? <==>
      (p.required.GetOr(true) && (p.name.None? || p.name.value !in inputs)) ||
      (p.name.Some? && p.name.value in inputs && ExpectedClasses(p.ptype.GetOr("string")).Some? &&
       !InstanceOfAny(inputs[p.name.value], ExpectedClasses(p.ptype.GetOr("string")).value))
  {
  }

  /** A boolean passes both "integer" and "number", as `isinstance(True, int)`
      holds in Python; an integer does not pass "boolean". */
  lemma BoolIsInteger(inputs: map<string, Json>, n: string, b: bool, i: int, req: Option<bool>)
    ensures ParamError(inputs[n := JBool(b)], Param(Some(n), Some("integer"), req)).None?
    ensures ParamError(inputs[n := JBool(b)], Param(Some(n), Some("number"), req)).None?
    ensures ParamError(inputs[n := JInt(i)], Param(Some(n), Some("boolean"), req)) ==
            Some(TypeMismatch(n, "boolean"))
  {
    assert IsInstance(JBool(b), IntClass);
  }

  /** Input keys that no parameter declares are never looked at: adding one
      does not change the outcome of validation. */
  lemma {:induction false} ValidationIgnoresUndeclared(inputs: map<string, Json>, params: seq<Param>,
                                                        k: string, v: Json)
    requires forall i :: 0 <= i < |params| ==> params[i].name != Some(k)
    ensures ValidateInputs(inputs[k := v], params) == ValidateInputs(inputs, params)
    decreases |params|
  {
    if params != [] {
      assert ParamError(inputs[k := v], params[0]) == ParamError(inputs, params[0]);
      ValidationIgnoresUndeclared(inputs, params[1..], k, v);
    }
  }

  // ---------------------------------------------------------------------
  // Read permission on InputFile inputs
  // ---------------------------------------------------------------------

  /** The `TypeError` Python raises when a list or dict is tested against or
      added to a set. */
  function Unhashable(v: Json): ErrorInfo {
    ErrorInfo("unhashable type: '" + TypeName(v) + "'", "TypeError")
  }

  /** The outcome of the permission loop for one parameter: only a declared
      "InputFile" present in the inputs is checked. */
  function FileParamStop(acl: Ledger, user: string, inputs: map<string, Json>, p: Param): (r: Option<Stop>)
    ensures !(IsInputFile(p) && p.name.Some? && p.name.value in inputs) ==> r.None?
    ensures IsInputFile(p) && p.name.Some? && p.name.value in inputs ==>
              var v := inputs[p.name.value];
              (Hash(v).None? ==> r == Some(Raise(Unhashable(v)))) &&
              (Hash(v).Some? ==> (r.None? <==> Acl.CanRead(acl, user, Hash(v).value))) &&
              (Hash(v).Some? && r.Some? ==> r == Some(Abort(PermissionDenied(v))))
  {
    if IsInputFile(p) && p.name.Some? && p.name.value in inputs then
      var v := inputs[p.name.value];
      match Hash(v)
      case None => Some(Raise(Unhashable(v)))
      case Some(h) => if Acl.CanRead(acl, user, h) then None else Some(Abort(PermissionDenied(v)))
    else None
  }

  /** `check_input_file_permissions`: it passes exactly when the user can
      read every declared "InputFile" value present in the inputs; the first
      unreadable one raises 403. */
  function CheckInputFilePermissions(acl: Ledger, user: string, inputs: map<string, Json>,
                                     params: seq<Param>): (r: Option<Stop>)
    ensures r.None? <==> forall i :: 0 <= i < |params| ==>
      IsInputFile(params[i]) && params[i].name.Some? && params[i].name.value in inputs ==>
        var v := inputs[params[i].name.value];
        Hash(v).Some? && Acl.CanRead(acl, user, Hash(v).value)
    ensures r.Some? && r.value.Abort? ==> r.value.http.StatusCode() == 403
    ensures r.Some? ==> exists i :: 0 <= i < |params| && FileParamStop(acl, user, inputs, params[i]) == r &&
                          forall j :: 0 <= j < i ==> FileParamStop(acl, user, inputs, params[j]).None?
  {
    FirstFailure(params, p => FileParamStop(acl, user, inputs, p))
  }

  // ---------------------------------------------------------------------
  // Secret resolution
  // ---------------------------------------------------------------------

  /** `vault_service.get_secret(user_id, prefab_id, secret.get("name"))`; a
      secret without a name is never stored. */
  function LookupSecret(vault: Vault.Store, user: string, prefab: string, name: Option<string>): Option<string> {
    if name.None? then None else Vault.GetSecret(vault, user, prefab, name.value)
  }

  /** A declared secret that is required (the default) and not stored. */
  predicate SecretMissing(vault: Vault.Store, user: string, prefab: string, d: SecretDecl) {
    LookupSecret(vault, user, prefab, d.name).None? && d.required.GetOr(true)
  }

  /** `resolve_secrets`: fails with 400 at the first required secret that is
      not stored; otherwise maps each declared secret whose stored value is
      non-empty to that value.  A stored empty string satisfies the required
      check but is left out of the map. */
  function ResolveSecrets(vault: Vault.Store, user: string, prefab: string, decls: seq<SecretDecl>)
    : (r: Result<map<string, string>, HttpError>)
    ensures r.Err? <==> exists i :: 0 <= i < |decls| && SecretMissing(vault, user, prefab, decls[i])
    ensures r.Err? ==> r.error.StatusCode() == 400
    ensures r.Err? ==> exists i :: 0 <= i < |decls| && SecretMissing(vault, user, prefab, decls[i]) &&
                         r.error == SecretNotConfigured(decls[i].name, prefab) &&
                         forall j :: 0 <= j < i ==> !SecretMissing(vault, user, prefab, decls[j])
    ensures r.Ok? ==> forall n :: n in r.value <==>
      exists i :: 0 <= i < |decls| && decls[i].name == Some(n) &&
                  Vault.GetSecret(vault, user, prefab, n).Some? &&
                  Vault.GetSecret(vault, user, prefab, n).value != ""
    ensures r.Ok? ==> forall n :: n in r.value ==> Vault.GetSecret(vault, user, prefab, n) == Some(r.value[n])
  {
    if decls == [] then Ok(map[])
    else
      var d := decls[0];
      var value := LookupSecret(vault, user, prefab, d.name);
      if SecretMissing(vault, user, prefab, d) then Err(SecretNotConfigured(d.name, prefab))
      else
        assert forall i :: 1 <= i < |decls| ==> decls[i] == decls[1..][i - 1];
        match ResolveSecrets(vault, user, prefab, decls[1..])
        case Err(e) => Err(e)
        case Ok(rest) =>
          Ok(if value.Some? && value.value != "" then rest[d.name.value := value.value] else rest)
  }

  // ---------------------------------------------------------------------
  // Downstream invocation
  // ---------------------------------------------------------------------

  /** The endpoint of `invoke_knative_service`: the service host is the
      prefab id, the namespace and the domain suffix joined by dots; the
      version is passed in but takes no part in the URL. */
  function InvocationUrl(cfg: Config, prefabId: string, version: string, functionName: string): (url: string)
    ensures url == "http://" + prefabId + "." + cfg.namespace + "." + cfg.domainSuffix + "/invoke/" + functionName
    ensures StartsWith(url, "http://" + prefabId + ".")
  {
    var serviceUrl := "http://" + prefabId + "." + cfg.namespace + "." + cfg.domainSuffix;
    assert serviceUrl[..|"http://" + prefabId + "."|] == "http://" + prefabId + ".";
    serviceUrl + "/invoke/" + functionName
  }

  /** A dot-free prefab id and namespace are recovered from the URL: calls
      to different prefabs or namespaces never reach the same endpoint. */
  lemma UrlSeparatesTargets(c1: Config, c2: Config, p1: string, p2: string, v1: string, v2: string, fn: string)
    requires '.' !in p1 && '.' !in p2 && '.' !in c1.namespace && '.' !in c2.namespace
    requires InvocationUrl(c1, p1, v1, fn) == InvocationUrl(c2, p2, v2, fn)
    ensures p1 == p2 && c1.namespace == c2.namespace && c1.domainSuffix == c2.domainSuffix
  {
    var r1, r2 := c1.namespace + "." + c1.domainSuffix, c2.namespace + "." + c2.domainSuffix;
    var u1, u2 := p1 + "." + r1, p2 + "." + r2;
    var tail := "/invoke/" + fn;
    assert InvocationUrl(c1, p1, v1, fn) == "http://" + u1 + tail;
    assert InvocationUrl(c2, p2, v2, fn) == "http://" + u2 + tail;
    assert u1 == ("http://" + u1 + tail)[7..|"http://" + u1 + tail| - |tail|];
    assert u2 == ("http://" + u2 + tail)[7..|"http://" + u2 + tail| - |tail|];
    DotPrefix(p1, r1, p2, r2);
    DotPrefix(c1.namespace, c1.domainSuffix, c2.namespace, c2.domainSuffix);
  }

  /** Two strings that each begin with a dot-free part and a dot agree on
      that part and on the rest. */
  lemma DotPrefix(a1: string, b1: string, a2: string, b2: string)
    requires '.' !in a1 && '.' !in a2
    requires a1 + "." + b1 == a2 + "." + b2
    ensures a1 == a2 && b1 == b2
  {
    var s := a1 + "." + b1;
    IndexOfAppend(a1, "." + b1, '.');
    IndexOfAppend(a2, "." + b2, '.');
    assert IndexOf(a1, '.') == |a1| && IndexOf(a2, '.') == |a2|;
    assert s == a1 + ("." + b1) && s == a2 + ("." + b2);
    assert |a1| == |a2|;
    assert a1 == s[..|a1|] && a2 == s[..|a2|];
    assert b1 == s[|a1| + 1..] && b2 == s[|a2| + 1..];
  }

  /** The URL of a prefab's function is the same for every version. */
  lemma UrlIgnoresVersion(cfg: Config, prefabId: string, v1: string, v2: string, fn: string)
    ensures InvocationUrl(cfg, prefabId, v1, fn) == InvocationUrl(cfg, prefabId, v2, fn)
  {
  }

  /** `{"inputs": call.inputs, "_secrets": resolved_secrets}`. */
  function DownstreamPayload(inputs: map<string, Json>, secrets: map<string, string>): (r: Json)
    ensures r.JObject? && r.fields.Keys == {"inputs", "_secrets"}
    ensures r.fields["inputs"] == JObject(inputs)
    ensures r.fields["_secrets"].JObject? && r.fields["_secrets"].fields.Keys == secrets.Keys
    ensures forall n :: n in secrets ==> r.fields["_secrets"].fields[n] == JStr(secrets[n])
  {
    JObject(map["inputs" := JObject(inputs), "_secrets" := JObject(map n | n in secrets :: JStr(secrets[n]))])
  }

  /** The error handling of `invoke_knative_service`: every failure of the
      downstream request becomes a 503 `HTTPException`. */
  function Invoke(reply: Reply): (r: Result<Json, HttpError>)
    ensures r.Ok? <==> reply.Answered?
    ensures r.Ok? ==> r.value == reply.body
    ensures r.Err? ==> r.error.StatusCode() == 503
  {
    match reply
    case Answered(body) => Ok(body)
    case StatusError(code) => Err(DownstreamStatus(code))
    case TimedOut => Err(DownstreamTimeout)
    case Broken(message) => Err(DownstreamFailure(message))
  }

  // ---------------------------------------------------------------------
  // OutputFile ownership
  // ---------------------------------------------------------------------

  /** The outcome of `field_name in output` followed by `output[field_name]`
      for whatever JSON value the downstream answered with. */
  datatype Membership = Found(value: Json) | Missing | Raises(exc: ErrorInfo)

  function OutputField(output: Json, name: string): (r: Membership)
    ensures output.JObject? ==> r == (if name in output.fields then Found(output.fields[name]) else Missing)
    ensures r.Found? ==> output.JObject?
  {
    match output
    case JObject(m) => if name in m then Found(m[name]) else Missing
    case JStr(s) =>
      if Contains(s, name) then Raises(ErrorInfo("string indices must be integers, not 'str'", "TypeError"))
      else Missing
    case JArray(xs) =>
      if JStr(name) in xs then Raises(ErrorInfo("list indices must be integers or slices, not str", "TypeError"))
      else Missing
    case _ => Raises(ErrorInfo("argument of type '" + TypeName(output) + "' is not iterable", "TypeError"))
  }

  /** The resources an object output hands over: the hash keys of the values
      of its "OutputFile" properties that are present. */
  ghost predicate OutputFileResource(m: map<string, Json>, props: seq<ReturnProp>, h: HashKey) {
    exists i :: 0 <= i < |props| && IsOutputFile(props[i]) && props[i].name in m &&
                Hash(m[props[i].name]) == Some(h)
  }

  /** `handle_output_files`: grants the user every "OutputFile" value present
      in an object output, in property order.  It stops at the first
      exception, keeping the grants already made. */
  function HandleOutputFiles(acl: Ledger, user: string, output: Json, props: seq<ReturnProp>)
    : (r: (Ledger, Option<ErrorInfo>))
    ensures forall u :: u != user ==> Acl.Granted(r.0, u) == Acl.Granted(acl, u)
    ensures Acl.Granted(acl, user) <= Acl.Granted(r.0, user)
    ensures !output.JObject? ==> r.0 == acl
    ensures output.JObject? ==> (r.1.None? <==> forall i :: 0 <= i < |props| ==>
              IsOutputFile(props[i]) && props[i].name in output.fields ==>
              Hash(output.fields[props[i].name]).Some?)
    ensures output.JObject? && r.1.None? ==> forall h ::
              h in Acl.Granted(r.0, user) <==>
              h in Acl.Granted(acl, user) || OutputFileResource(output.fields, props, h)
    decreases |props|
  {
    if props == [] then (acl, None)
    else
      var p := props[0];
      assert forall i :: 1 <= i < |props| ==> props[i] == props[1..][i - 1];
      if !IsOutputFile(p) then HandleOutputFiles(acl, user, output, props[1..])
      else match OutputField(output, p.name)
        case Missing => HandleOutputFiles(acl, user, output, props[1..])
        case Raises(e) => (acl, Some(e))
        case Found(v) =>
          match Hash(v)
          case None => (acl, Some(Unhashable(v)))
          case Some(h) => HandleOutputFiles(Acl.GrantOwnership(acl, user, h), user, output, props[1..])
  }

  /** `CallResult(status=SUCCESS, output=output)`: the response model accepts
      a dict or `None` as output; anything else makes pydantic raise a
      `ValidationError`, which fails the call. */
  function SuccessResult(output: Json): (r: CallResult)
    ensures r.status == SUCCESS <==> output.JObject? || output.JNull?
    ensures r.status == SUCCESS ==> r.output == Some(output) && r.error.None?
  {
    if output.JObject? || output.JNull? then CallResult(SUCCESS, Some(output), None)
    else CallResult(FAILED, None, Some(ErrorInfo("1 validation error for CallResult", "ValidationError")))
  }

  function FailedResult(e: ErrorInfo): CallResult {
    CallResult(FAILED, None, Some(e))
  }

  // ---------------------------------------------------------------------
  // One call, then the batch
  // ---------------------------------------------------------------------

  datatype CallOutcome = Completed(result: CallResult) | Aborted(error: HttpError)

  /** The function a call names in the spec it names, when both exist. */
  function ResolvedFunction(svc: Services, call: Call): Option<FunctionDef> {
    match SpecCache.GetSpec(svc.specs, call.prefabId, call.version)
    case None => None
    case Some(spec) =>
      match FindFunction(Functions(spec), call.functionName)
      case None => None
      case Some(i) => Some(Functions(spec)[i])
  }

  /** The steps of a call after its function `f` is resolved.  An
      `HTTPException` (422, 403, 400, 503) aborts with the ledger unchanged;
      an unhashable input file, an output-file grant that raises and an
      output the response model refuses end the call as `FAILED`. */
  function RunFunction(svc: Services, acl: Ledger, user: string, call: Call, f: FunctionDef, cfg: Config,
                       downstream: (string, Json) -> Reply): (r: (Ledger, CallOutcome))
    ensures forall u :: u != user ==> Acl.Granted(r.0, u) == Acl.Granted(acl, u)
    ensures Acl.Granted(acl, user) <= Acl.Granted(r.0, user)
    ensures var invalid := ValidateInputs(call.inputs, f.parameters);
            var denied := CheckInputFilePermissions(acl, user, call.inputs, f.parameters);
            (invalid.Some? ==> r == (acl, Aborted(invalid.value))) &&
            (invalid.None? && denied.Some? && denied.value.Abort? ==> r == (acl, Aborted(denied.value.http))) &&
            (invalid.None? && denied.Some? && denied.value.Raise? ==>
               r == (acl, Completed(FailedResult(denied.value.exc))))
    ensures var secrets := ResolveSecrets(svc.vault, user, call.prefabId, f.secrets);
            ValidateInputs(call.inputs, f.parameters).None? &&
            CheckInputFilePermissions(acl, user, call.inputs, f.parameters).None? ==>
              (secrets.Err? ==> r == (acl, Aborted(secrets.error))) &&
              (secrets.Ok? ==>
                 var reply := downstream(InvocationUrl(cfg, call.prefabId, call.version, call.functionName),
                                         DownstreamPayload(call.inputs, secrets.value));
                 (!reply.Answered? ==> r == (acl, Aborted(Invoke(reply).error))) &&
                 (reply.Answered? ==>
                    var handled := HandleOutputFiles(acl, user, reply.body, f.returnProps);
                    r.0 == handled.0 &&
                    (handled.1.Some? ==> r.1 == Completed(FailedResult(handled.1.value))) &&
                    (handled.1.None? ==> r.1 == Completed(SuccessResult(reply.body)))))
    ensures r.1.Aborted? ==> r.1.error.StatusCode() in {422, 403, 400, 503}
  {
    match ValidateInputs(call.inputs, f.parameters)
    case Some(e) => (acl, Aborted(e))
    case None =>
      match CheckInputFilePermissions(acl, user, call.inputs, f.parameters)
      case Some(Abort(e)) => (acl, Aborted(e))
      case Some(Raise(x)) => (acl, Completed(FailedResult(x)))
      case None =>
        match ResolveSecrets(svc.vault, user, call.prefabId, f.secrets)
        case Err(e) => (acl, Aborted(e))
        case Ok(secrets) =>
          var url := InvocationUrl(cfg, call.prefabId, call.version, call.functionName);
          match Invoke(downstream(url, DownstreamPayload(call.inputs, secrets)))
          case Err(e) => (acl, Aborted(e))
          case Ok(output) =>
            var (acl', exc) := HandleOutputFiles(acl, user, output, f.returnProps);
            if exc.Some? then (acl', Completed(FailedResult(exc.value)))
            else (acl', Completed(SuccessResult(output)))
  }

  /** The body of the batch loop for one call: the ledger after the call and
      how the call ended.  `downstream` answers the POST to a URL with a
      payload. */
  function RunCall(svc: Services, acl: Ledger, user: string, call: Call, cfg: Config,
                   downstream: (string, Json) -> Reply): (r: (Ledger, CallOutcome))
    ensures forall u :: u != user ==> Acl.Granted(r.0, u) == Acl.Granted(acl, u)
    ensures Acl.Granted(acl, user) <= Acl.Granted(r.0, user)
    ensures SpecCache.GetSpec(svc.specs, call.prefabId, call.version).None? ==>
              r == (acl, Aborted(SpecNotFound(call.prefabId, call.version)))
    ensures r.1.Aborted? && r.1.error.StatusCode() == 404 <==> ResolvedFunction(svc, call).None?
    ensures ResolvedFunction(svc, call).None? ==> r.0 == acl
    ensures ResolvedFunction(svc, call).Some? ==>
              r == RunFunction(svc, acl, user, call, ResolvedFunction(svc, call).value, cfg, downstream)
    ensures r.1.Completed? && r.1.result.status == SUCCESS ==>
              var f := ResolvedFunction(svc, call);
              f.Some? && ValidateInputs(call.inputs, f.value.parameters).None? &&
              CheckInputFilePermissions(acl, user, call.inputs, f.value.parameters).None? &&
              ResolveSecrets(svc.vault, user, call.prefabId, f.value.secrets).Ok?
  {
    match SpecCache.GetSpec(svc.specs, call.prefabId, call.version)
    case None => (acl, Aborted(SpecNotFound(call.prefabId, call.version)))
    case Some(spec) =>
      match FindFunction(Functions(spec), call.functionName)
      case None => (acl, Aborted(FunctionNotFound(call.functionName, call.prefabId)))
      case Some(i) => RunFunction(svc, acl, user, call, Functions(spec)[i], cfg, downstream)
  }

  /** The body of the batch loop: from the ledger so far and a call, the
      ledger after it and how the call ended. */
  type Step = (Ledger, Call) -> (Ledger, CallOutcome)

  /** The batch loop of `run_prefabs` for a given loop body: results in call
      order; the first `HTTPException` ends the batch with no results,
      keeping the grants made so far. */
  function Batch(acl: Ledger, calls: seq<Call>, step: Step): (r: (Ledger, Result<seq<CallResult>, HttpError>))
    ensures r.1.Ok? ==> |r.1.value| == |calls|
    decreases |calls|
  {
    if calls == [] then (acl, Ok([]))
    else
      var (acl1, outcome) := step(acl, calls[0]);
      match outcome
      case Aborted(e) => (acl1, Err(e))
      case Completed(res) =>
        var (acl2, rest) := Batch(acl1, calls[1..], step);
        match rest
        case Err(e) => (acl2, Err(e))
        case Ok(rs) => (acl2, Ok([res] + rs))
  }

  /** A loop body that leaves the rights of everyone but `user` alone. */
  ghost predicate KeepsOthers(step: Step, user: string) {
    forall a, c, u :: u != user ==> Acl.Granted(step(a, c).0, u) == Acl.Granted(a, u)
  }

  /** A batch of such a body leaves them alone as well. */
  lemma {:induction false} BatchKeepsOthers(acl: Ledger, calls: seq<Call>, step: Step, user: string)
    requires KeepsOthers(step, user)
    ensures forall u :: u != user ==> Acl.Granted(Batch(acl, calls, step).0, u) == Acl.Granted(acl, u)
    decreases |calls|
  {
    if calls != [] {
      var acl1 := step(acl, calls[0]).0;
      BatchKeepsOthers(acl1, calls[1..], step, user);
    }
  }

  /** The loop body of a run: `RunCall` with the request's services, user,
      settings and downstream service. */
  function CallStep(svc: Services, user: string, cfg: Config, downstream: (string, Json) -> Reply): (step: Step)
    ensures KeepsOthers(step, user)
  {
    (a, c) => RunCall(svc, a, user, c, cfg, downstream)
  }

  /** The batch loop of a run. */
  function RunCalls(svc: Services, acl: Ledger, user: string, calls: seq<Call>, cfg: Config,
                    downstream: (string, Json) -> Reply): (r: (Ledger, Result<seq<CallResult>, HttpError>))
    ensures r.1.Ok? ==> |r.1.value| == |calls|
    ensures forall u :: u != user ==> Acl.Granted(r.0, u) == Acl.Granted(acl, u)
  {
    BatchKeepsOthers(acl, calls, CallStep(svc, user, cfg, downstream), user);
    Batch(acl, calls, CallStep(svc, user, cfg, downstream))
  }

  /** `overall_status`. */
  function OverallStatus(results: seq<CallResult>): (s: string)
    ensures s == "COMPLETED" <==> forall i :: 0 <= i < |results| ==> results[i].status == SUCCESS
    ensures s != "COMPLETED" ==> s == "PARTIAL_SUCCESS"
  {
    if forall i :: 0 <= i < |results| ==> results[i].status == SUCCESS then "COMPLETED"
    else "PARTIAL_SUCCESS"
  }

  /** `run_prefabs` for an authenticated user; `jobId` is the fresh request
      id. */
  function RunPrefabs(svc: Services, acl: Ledger, user: string, calls: seq<Call>, jobId: string,
                      cfg: Config, downstream: (string, Json) -> Reply)
    : (r: (Ledger, Result<RunResponse, HttpError>))
    ensures r.1.Ok? ==> r.1.value.jobId == jobId && |r.1.value.results| == |calls|
    ensures r.1.Ok? ==> (r.1.value.status == "COMPLETED" <==>
              forall i :: 0 <= i < |calls| ==> r.1.value.results[i].status == SUCCESS)
    ensures calls == [] ==> r == (acl, Ok(RunResponse(jobId, "COMPLETED", [])))
  {
    var (acl', results) := RunCalls(svc, acl, user, calls, cfg, downstream);
    match results
    case Err(e) => (acl', Err(e))
    case Ok(rs) => (acl', Ok(RunResponse(jobId, OverallStatus(rs), rs)))
  }

  /** Continues a batch outcome with more calls: an aborted batch stays
      aborted, a finished one runs the further calls from its ledger. */
  function Then(first: (Ledger, Result<seq<CallResult>, HttpError>), more: seq<Call>, step: Step)
    : (Ledger, Result<seq<CallResult>, HttpError>)
  {
    if first.1.Err? then first
    else
      var (a2, r2) := Batch(first.0, more, step);
      (a2, if r2.Ok? then Ok(first.1.value + r2.value) else r2)
  }

  /** Running a batch is running its first part and then, from the ledger it
      leaves, its second part: an abort in either part aborts the whole. */
  lemma {:induction false} BatchSplit(acl: Ledger, cs1: seq<Call>, cs2: seq<Call>, step: Step)
    ensures Batch(acl, cs1 + cs2, step) == Then(Batch(acl, cs1, step), cs2, step)
    decreases |cs1|
  {
    if cs1 == [] {
      assert cs1 + cs2 == cs2;
      var (a2, r2) := Batch(acl, cs2, step);
      if r2.Ok? {
        assert [] + r2.value == r2.value;
      }
    } else {
      assert (cs1 + cs2)[0] == cs1[0];
      assert (cs1 + cs2)[1..] == cs1[1..] + cs2;
      var (acl1, outcome) := step(acl, cs1[0]);
      if outcome.Completed? {
        BatchSplit(acl1, cs1[1..], cs2, step);
        var tail := Batch(acl1, cs1[1..], step);
        if tail.1.Ok? {
          var (a2, r2) := Batch(tail.0, cs2, step);
          if r2.Ok? {
            assert [outcome.result] + (tail.1.value + r2.value) == ([outcome.result] + tail.1.value) + r2.value;
          }
        }
      }
    }
  }

  /** Results are index-aligned with calls: the i-th result is what the i-th
      call produced from the ledger its predecessors left, so a failed call
      does not stop the calls after it. */
  lemma ResultsInCallOrder(acl: Ledger, calls: seq<Call>, step: Step, i: nat)
    requires Batch(acl, calls, step).1.Ok?
    requires i < |calls|
    ensures Batch(acl, calls[..i], step).1.Ok?
    ensures step(Batch(acl, calls[..i], step).0, calls[i]).1 == Completed(Batch(acl, calls, step).1.value[i])
  {
    var pre := calls[..i];
    var post := calls[i..];
    assert calls == pre + post;
    BatchSplit(acl, pre, post, step);
    var first := Batch(acl, pre, step);
    assert first.1.Ok?;
    var (a3, o) := step(first.0, post[0]);
    assert o.Completed?;
    var (a2, r2) := Batch(first.0, post, step);
    assert r2.Ok? && r2.value[0] == o.result;
    assert post[0] == calls[i];
  }

  /** A batch that ends in an error ends with the error of the first call
      that aborted, every call before it having completed. */
  lemma {:induction false} AbortIsFirstAbort(acl: Ledger, calls: seq<Call>, step: Step)
    requires Batch(acl, calls, step).1.Err?
    ensures exists i :: 0 <= i < |calls| && Batch(acl, calls[..i], step).1.Ok? &&
              step(Batch(acl, calls[..i], step).0, calls[i]).1 == Aborted(Batch(acl, calls, step).1.error)
    decreases |calls|
  {
    var (acl1, outcome) := step(acl, calls[0]);
    if outcome.Aborted? {
      assert calls[..0] == [];
    } else {
      var rest := calls[1..];
      AbortIsFirstAbort(acl1, rest, step);
      var i :| 0 <= i < |rest| && Batch(acl1, rest[..i], step).1.Ok? &&
               step(Batch(acl1, rest[..i], step).0, rest[i]).1 == Aborted(Batch(acl1, rest, step).1.error);
      var pre := calls[..i + 1];
      assert pre[0] == calls[0] && pre[1..] == rest[..i];
      assert Batch(acl, pre, step).0 == Batch(acl1, rest[..i], step).0;
      assert calls[i + 1] == rest[i];
    }
  }

  /** A call whose "InputFile" check fails never reaches the downstream
      service: its outcome is the same whatever the service would answer. */
  lemma PermissionFailureSkipsDownstream(svc: Services, acl: Ledger, user: string, call: Call, cfg: Config,
                                         d1: (string, Json) -> Reply, d2: (string, Json) -> Reply)
    requires ResolvedFunction(svc, call).Some?
    requires CheckInputFilePermissions(acl, user, call.inputs, ResolvedFunction(svc, call).value.parameters).Some?
    ensures RunCall(svc, acl, user, call, cfg, d1) == RunCall(svc, acl, user, call, cfg, d2)
    ensures RunCall(svc, acl, user, call, cfg, d1).0 == acl
  {
  }

  /** On success the downstream receives exactly the call's inputs plus the
      resolved secrets, at the URL built from the prefab id and function
      name; the call then succeeds with the answer as output, provided the
      answer is an object whose "OutputFile" values can be granted. */
  lemma SuccessfulCall(svc: Services, acl: Ledger, user: string, call: Call, cfg: Config,
                       downstream: (string, Json) -> Reply, f: FunctionDef, secrets: map<string, string>,
                       m: map<string, Json>)
    requires ResolvedFunction(svc, call) == Some(f)
    requires ValidateInputs(call.inputs, f.parameters).None?
    requires CheckInputFilePermissions(acl, user, call.inputs, f.parameters).None?
    requires ResolveSecrets(svc.vault, user, call.prefabId, f.secrets) == Ok(secrets)
    requires downstream(InvocationUrl(cfg, call.prefabId, call.version, call.functionName),
                        DownstreamPayload(call.inputs, secrets)) == Answered(JObject(m))
    requires forall i :: 0 <= i < |f.returnProps| ==>
               IsOutputFile(f.returnProps[i]) && f.returnProps[i].name in m ==> Hash(m[f.returnProps[i].name]).Some?
    ensures var (acl', o) := RunCall(svc, acl, user, call, cfg, downstream);
            o == Completed(CallResult(SUCCESS, Some(JObject(m)), None)) &&
            forall h :: h in Acl.Granted(acl', user) <==>
              h in Acl.Granted(acl, user) || OutputFileResource(m, f.returnProps, h)
  {
    var (acl', exc) := HandleOutputFiles(acl, user, JObject(m), f.returnProps);
    assert exc.None?;
  }

  // ---------------------------------------------------------------------
  // The endpoint as shipped
  // ---------------------------------------------------------------------

  /** What `spec_cache_service.get_spec` raises in the router as shipped.
      Importing the service classes in `services/__init__.py` binds the
      package attribute `spec_cache_service` to its submodule, so the
      router's `from services import spec_cache_service` yields the module,
      which has no `get_spec`. */
  const NoGetSpec := ErrorInfo("module 'services.spec_cache_service' has no attribute 'get_spec'", "AttributeError")

  /** The loop body as shipped: the spec lookup at the top of the `try`
      raises an exception that is not an `HTTPException`. */
  function ShippedStep(): (step: Step)
    ensures forall a, c :: step(a, c).0 == a
    ensures forall a, c :: step(a, c).1.Completed? && step(a, c).1.result.status == FAILED &&
                           step(a, c).1.result.output.None? &&
                           step(a, c).1.result.error == Some(NoGetSpec) &&
                           step(a, c).1.result.error.value.typeName == "AttributeError"
  {
    (a, c) => (a, Completed(FailedResult(NoGetSpec)))
  }

  /** The shipped batch fails every call and leaves the ledger as it was. */
  lemma {:induction false} ShippedBatch(acl: Ledger, calls: seq<Call>)
    ensures Batch(acl, calls, ShippedStep()) == (acl, Ok(seq(|calls|, _ => FailedResult(NoGetSpec))))
    decreases |calls|
  {
    if calls != [] {
      assert ShippedStep()(acl, calls[0]) == (acl, Completed(FailedResult(NoGetSpec)));
      ShippedBatch(acl, calls[1..]);
      assert seq(|calls|, _ => FailedResult(NoGetSpec))
          == [FailedResult(NoGetSpec)] + seq(|calls| - 1, _ => FailedResult(NoGetSpec));
    } else {
      assert seq(|calls|, _ => FailedResult(NoGetSpec)) == [];
    }
  }

  /** `run_prefabs` as shipped, over the same inputs as `RunPrefabs`: no
      call reaches validation, the read check, the downstream service or a
      grant; each one ends `FAILED` with `AttributeError`, and any
      non-empty batch answers PARTIAL_SUCCESS. */
  function ShippedRunPrefabs(svc: Services, acl: Ledger, user: string, calls: seq<Call>, jobId: string,
                             cfg: Config, downstream: (string, Json) -> Reply)
    : (r: (Ledger, Result<RunResponse, HttpError>))
    ensures r.0 == acl && r.1.Ok? && r.1.value.jobId == jobId
    ensures r.1.value.results == seq(|calls|, _ => CallResult(FAILED, None, Some(NoGetSpec)))
    ensures r.1.value.status == (if calls == [] then "COMPLETED" else "PARTIAL_SUCCESS")
  {
    ShippedBatch(acl, calls);
    var (acl', results) := Batch(acl, calls, ShippedStep());
    match results
    case Err(e) => (acl', Err(e))
    case Ok(rs) =>
      assert calls != [] ==> rs[0].status == FAILED;
      (acl', Ok(RunResponse(jobId, OverallStatus(rs), rs)))
  }

  /** The discrepancy: a call that the intended pipeline completes with
      SUCCESS makes the intended batch COMPLETED and the shipped one
      PARTIAL_SUCCESS, with its result FAILED. */
  lemma ShippedRunDiffers(svc: Services, acl: Ledger, user: string, call: Call, jobId: string, cfg: Config,
                          downstream: (string, Json) -> Reply)
    requires RunCall(svc, acl, user, call, cfg, downstream).1.Completed?
    requires RunCall(svc, acl, user, call, cfg, downstream).1.result.status == SUCCESS
    ensures RunPrefabs(svc, acl, user, [call], jobId, cfg, downstream).1 ==
              Ok(RunResponse(jobId, "COMPLETED", [RunCall(svc, acl, user, call, cfg, downstream).1.result]))
    ensures ShippedRunPrefabs(svc, acl, user, [call], jobId, cfg, downstream).1 ==
              Ok(RunResponse(jobId, "PARTIAL_SUCCESS", [FailedResult(NoGetSpec)]))
  {
    var step := CallStep(svc, user, cfg, downstream);
    var (acl1, o) := step(acl, call);
    var calls := [call];
    assert calls[0] == call && calls[1..] == [];
    assert o.Completed?;
    assert Batch(acl1, calls[1..], step) == (acl1, Ok([]));
    assert [o.result] + [] == [o.result];
    assert Batch(acl, calls, step) == (acl1, Ok([o.result]));
    ShippedBatch(acl, [call]);
    assert seq(1, _ => FailedResult(NoGetSpec)) == [FailedResult(NoGetSpec)];
  }
}

=== FILE: secrets_router.dfy ===
/** The secrets endpoints (app/routers/secrets.py): each works on the
    authenticated user's own secrets, and none of them answers a value. */
module SecretsRouter {
  import opened Wrappers
  import Vault
  import Auth

  /** `SecretPayload`. */
  datatype SecretPayload = SecretPayload(prefabId: string, secretName: string, secretValue: string)

  /** The answer of `list_secrets`: the prefab id echoed and the names. */
  datatype SecretNames = SecretNames(prefabId: string, secretNames: set<string>)

  const NoContent: int := 204

  /** `POST /v1/secrets`: stores under the caller's id; 204. */
  function StoreSecret(vault: Vault.Store, user: Auth.User, p: SecretPayload): (r: (Vault.Store, int))
    ensures r.1 == NoContent
    ensures Vault.GetSecret(r.0, user.userId, p.prefabId, p.secretName) == Some(p.secretValue)
    ensures forall k :: k in vault && k != Vault.SecretKey(user.userId, p.prefabId, p.secretName) ==>
              k in r.0 && r.0[k] == vault[k]
  {
    (Vault.StoreSecret(vault, user.userId, p.prefabId, p.secretName, p.secretValue), NoContent)
  }

  /** `GET /v1/secrets/{prefab_id}`: the names of the caller's secrets for
      that prefab. */
  function ListSecrets(vault: Vault.Store, user: Auth.User, prefabId: string): (r: SecretNames)
    ensures r.prefabId == prefabId
    ensures forall n :: n in r.secretNames <==> Vault.SecretKey(user.userId, prefabId, n) in vault
  {
    var pairs := Vault.ListSecrets(vault, user.userId, Some(prefabId));
    SecretNames(prefabId, set pn | pn in pairs :: pn.1)
  }

  /** `DELETE /v1/secrets/{prefab_id}/{secret_name}`: 204 whether or not
      the secret existed. */
  function DeleteSecret(vault: Vault.Store, user: Auth.User, prefabId: string, name: string): (r: (Vault.Store, int))
    ensures r.1 == NoContent
    ensures Vault.GetSecret(r.0, user.userId, prefabId, name).None?
    ensures r.0.Keys == vault.Keys - {Vault.SecretKey(user.userId, prefabId, name)}
    ensures forall k :: k in r.0 ==> r.0[k] == vault[k]
  {
    (Vault.DeleteSecret(vault, user.userId, prefabId, name).0, NoContent)
  }

  /** A stored secret is listed under its prefab, and only for its owner. */
  lemma StoredIsListed(vault: Vault.Store, user: Auth.User, other: Auth.User, p: SecretPayload)
    requires other.userId != user.userId
    ensures p.secretName in ListSecrets(StoreSecret(vault, user, p).0, user, p.prefabId).secretNames
    ensures ListSecrets(StoreSecret(vault, user, p).0, other, p.prefabId) == ListSecrets(vault, other, p.prefabId)
  {
    var after := StoreSecret(vault, user, p).0;
    assert ListSecrets(after, other, p.prefabId).secretNames == ListSecrets(vault, other, p.prefabId).secretNames by {
      forall n ensures n in ListSecrets(after, other, p.prefabId).secretNames <==>
                       n in ListSecrets(vault, other, p.prefabId).secretNames {
        assert Vault.SecretKey(other.userId, p.prefabId, n) != Vault.SecretKey(user.userId, p.prefabId, p.secretName);
      }
    }
  }

  /** A deleted secret is no longer listed; a second delete answers 204 as
      well. */
  lemma DeletedIsNotListed(vault: Vault.Store, user: Auth.User, prefabId: string, name: string)
    ensures var (after, code) := DeleteSecret(vault, user, prefabId, name);
            name !in ListSecrets(after, user, prefabId).secretNames &&
            DeleteSecret(after, user, prefabId, name) == (after, NoContent)
  {
    var after := DeleteSecret(vault, user, prefabId, name).0;
    assert after - {Vault.SecretKey(user.userId, prefabId, name)} == after;
  }

  /** No answer carries a value: vaults holding the same secrets with
      different values list the same names. */
  lemma ListingHidesValues(v1: Vault.Store, v2: Vault.Store, user: Auth.User, prefabId: string)
    requires v1.Keys == v2.Keys
    ensures ListSecrets(v1, user, prefabId) == ListSecrets(v2, user, prefabId)
  {
    Vault.ListIgnoresValues(v1, v2, user.userId, Some(prefabId));
  }
}

=== FILE: spec_cache.dfy ===
/** The spec cache (services/spec_cache_service.py) in its in-memory mode:
    a map from the key "spec:<prefab_id>:<version>" to the spec document.
    Reads of an absent or empty document answer `None`, writes always
    succeed, and deletes report whether the key was there. */
module SpecCache {
  import opened Wrappers
  import opened Manifest

  type Cache = map<string, Spec>

  /** `_make_key`. */
  function MakeKey(prefabId: string, version: string): (k: string)
    ensures |k| == 6 + |prefabId| + |version|
    ensures k[..5] == "spec:" && k[5..5 + |prefabId|] == prefabId
    ensures k[5 + |prefabId|] == ':' && k[6 + |prefabId|..] == version
  {
    "spec:" + prefabId + ":" + version
  }

  /** `get_spec`: the stored document when there is one and it is not
      empty; `None` otherwise, never an error. */
  function GetSpec(c: Cache, prefabId: string, version: string): (r: Option<Spec>)
    ensures r.Some? <==> MakeKey(prefabId, version) in c && !IsEmpty(c[MakeKey(prefabId, version)])
    ensures r.Some? ==> r.value == c[MakeKey(prefabId, version)]
  {
    var key := MakeKey(prefabId, version);
    if key in c && !IsEmpty(c[key]) then Some(c[key]) else None
  }

  /** `set_spec`: stores or overwrites the document under its key and
      answers true; the time-to-live only applies to the Redis mode. */
  function SetSpec(c: Cache, prefabId: string, version: string, spec: Spec): (r: (Cache, bool))
    ensures r.1
    ensures r.0.Keys == c.Keys + {MakeKey(prefabId, version)}
    ensures r.0[MakeKey(prefabId, version)] == spec
    ensures forall k :: k in c && k != MakeKey(prefabId, version) ==> r.0[k] == c[k]
  {
    (c[MakeKey(prefabId, version) := spec], true)
  }

  /** `delete_spec`: removes the key, true iff it was present. */
  function DeleteSpec(c: Cache, prefabId: string, version: string): (r: (Cache, bool))
    ensures r.1 <==> MakeKey(prefabId, version) in c
    ensures r.0.Keys == c.Keys - {MakeKey(prefabId, version)}
    ensures forall k :: k in r.0 ==> r.0[k] == c[k]
  {
    var key := MakeKey(prefabId, version);
    if key in c then (c - {key}, true) else (c, false)
  }

  /** A read after a write answers the written document, except that an
      empty document reads back as `None`. */
  lemma GetAfterSet(c: Cache, prefabId: string, version: string, spec: Spec)
    ensures GetSpec(SetSpec(c, prefabId, version, spec).0, prefabId, version) ==
            (if IsEmpty(spec) then None else Some(spec))
  {
  }

  /** A read after a delete answers `None`; a second delete answers false. */
  lemma GetAfterDelete(c: Cache, prefabId: string, version: string)
    ensures var (after, _) := DeleteSpec(c, prefabId, version);
            GetSpec(after, prefabId, version).None? && !DeleteSpec(after, prefabId, version).1
  {
  }

  /** Writing one (prefab, version) leaves the reads of every pair with a
      different key as they were. */
  lemma SetLeavesOthers(c: Cache, prefabId: string, version: string, spec: Spec,
                        prefabId': string, version': string)
    requires MakeKey(prefabId', version') != MakeKey(prefabId, version)
    ensures GetSpec(SetSpec(c, prefabId, version, spec).0, prefabId', version') ==
            GetSpec(c, prefabId', version')
  {
  }

  /** The key is ambiguous once a prefab id contains ':': ("a:b", "c") and
      ("a", "b:c") share the key "spec:a:b:c", so one overwrites the
      other. */
  lemma KeyCollision()
    ensures MakeKey("a:b", "c") == MakeKey("a", "b:c") == "spec:a:b:c"
    ensures forall c: Cache, s: Spec :: !IsEmpty(s) ==>
      GetSpec(SetSpec(c, "a:b", "c", s).0, "a", "b:c") == Some(s)
  {
    assert MakeKey("a:b", "c") == "spec:a:b:c";
    assert MakeKey("a", "b:c") == "spec:a:b:c";
  }

  /** Prefab ids without ':' keep keys apart: the first ':' after the
      "spec:" prefix ends the prefab id. */
  lemma {:induction false} KeyInjective(p1: string, v1: string, p2: string, v2: string)
    requires ':' !in p1 && ':' !in p2
    requires MakeKey(p1, v1) == MakeKey(p2, v2)
    ensures p1 == p2 && v1 == v2
  {
    var k := MakeKey(p1, v1);
    assert p1 == k[5..5 + |p1|] == p2;
  }
}

=== FILE: text.dfy ===
/** String operations of Python's `str` that the gateway's decisions rest
    on: `startswith`, `in` (substring), `find`/`rfind` of one character and
    `split`. */
module Text {

  /** `s.startswith(p)`. */
  predicate StartsWith(s: string, p: string) {
    |p| <= |s| && s[..|p|] == p
  }

  /** `needle in hay` for two strings: a substring test, true for the empty
      needle. */
  predicate Contains(hay: string, needle: string)
    decreases |hay|
  {
    StartsWith(hay, needle) || (|hay| > 0 && Contains(hay[1..], needle))
  }

  /** `s.find(c)` for a single character: the first index holding `c`, or
      `|s|` when there is none (Python answers -1; `|s|` keeps the result a
      valid slice bound). */
  function IndexOf(s: string, c: char): (r: nat)
    ensures r <= |s|
    ensures r < |s| ==> s[r] == c
    ensures forall j :: 0 <= j < r ==> s[j] != c
  {
    if |s| == 0 then 0
    else if s[0] == c then 0
    else 1 + IndexOf(s[1..], c)
  }

  /** `s.rfind(c)` for a single character: the last index holding `c`, or
      -1 when there is none. */
  function LastIndexOf(s: string, c: char): (r: int)
    ensures -1 <= r < |s|
    ensures r >= 0 ==> s[r] == c
    ensures forall j :: r < j < |s| ==> s[j] != c
  {
    if |s| == 0 then -1
    else if s[|s| - 1] == c then |s| - 1
    else LastIndexOf(s[..|s| - 1], c)
  }

  /** `s.split(sep)` for a one-character separator: the maximal pieces
      between separators, including empty ones. */
  function Split(s: string, sep: char): (parts: seq<string>)
    ensures |parts| > 0
    ensures forall i :: 0 <= i < |parts| ==> sep !in parts[i]
    decreases |s|
  {
    var i := IndexOf(s, sep);
    if i == |s| then [s]
    else [s[..i]] + Split(s[i + 1..], sep)
  }

  /** The pieces of `Split` joined back with the separator. */
  function Join(parts: seq<string>, sep: char): string
    requires |parts| > 0
  {
    if |parts| == 1 then parts[0] else parts[0] + [sep] + Join(parts[1..], sep)
  }

  /** Splitting loses nothing: joining the pieces gives back the string. */
  lemma {:induction false} JoinSplit(s: string, sep: char)
    ensures Join(Split(s, sep), sep) == s
    decreases |s|
  {
    var i := IndexOf(s, sep);
    if i < |s| {
      var head, rest := s[..i], s[i + 1..];
      assert sep !in head;
      assert s == head + [sep] + rest;
      SplitCons(head, rest, sep);
      JoinSplit(rest, sep);
      assert ([head] + Split(rest, sep))[1..] == Split(rest, sep);
    } else {
      assert Split(s, sep) == [s];
    }
  }

  /** The first separator of `s + rest` is the first one of `s`, or else
      the first one of `rest`, shifted by `|s|`. */
  lemma IndexOfAppend(s: string, rest: string, c: char)
    ensures IndexOf(s + rest, c) == if IndexOf(s, c) < |s| then IndexOf(s, c) else |s| + IndexOf(rest, c)
  {
    var u := s + rest;
    var i := IndexOf(s, c);
    if i < |s| {
      assert u[i] == c;
      assert forall j :: 0 <= j < i ==> u[j] == s[j];
    } else {
      var k := IndexOf(rest, c);
      assert forall j :: 0 <= j < |s| ==> u[j] == s[j];
      assert forall j :: |s| <= j < |s| + k ==> u[j] == rest[j - |s|];
      if k < |rest| {
        assert u[|s| + k] == c;
      }
    }
  }

  /** A string without the separator is a single piece. */
  lemma SplitNoSep(a: string, c: char)
    requires c !in a
    ensures Split(a, c) == [a]
  {
    assert IndexOf(a, c) == |a|;
  }

  /** A first piece without the separator, then the separator, splits off
      exactly that piece. */
  lemma SplitCons(a: string, rest: string, c: char)
    requires c !in a
    ensures Split(a + [c] + rest, c) == [a] + Split(rest, c)
  {
    var u := a + [c] + rest;
    assert IndexOf(a, c) == |a|;
    IndexOfAppend(a, [c] + rest, c);
    assert u == a + ([c] + rest);
    assert IndexOf([c] + rest, c) == 0;
    assert u[..|a|] == a && u[|a| + 1..] == rest;
  }

  /** Appending a separator and a piece without separators appends exactly
      that piece to the split. */
  lemma {:induction false} SplitAppend(s: string, t: string, c: char)
    requires c !in t
    ensures Split(s + [c] + t, c) == Split(s, c) + [t]
    decreases |s|
  {
    var i := IndexOf(s, c);
    if i < |s| {
      var head, s' := s[..i], s[i + 1..];
      assert c !in head;
      assert s == head + [c] + s';
      assert s + [c] + t == head + [c] + (s' + [c] + t);
      SplitCons(head, s' + [c] + t, c);
      SplitCons(head, s', c);
      SplitAppend(s', t, c);
      assert [head] + (Split(s', c) + [t]) == ([head] + Split(s', c)) + [t];
    } else {
      assert c !in s;
      SplitCons(s, t, c);
      SplitNoSep(t, c);
      SplitNoSep(s, c);
    }
  }

  /** Splitting pieces without the separator after joining them gives the
      pieces back. */
  lemma {:induction false} SplitJoin(parts: seq<string>, c: char)
    requires parts != [] && forall i :: 0 <= i < |parts| ==> c !in parts[i]
    ensures Split(Join(parts, c), c) == parts
    decreases |parts|
  {
    if |parts| == 1 {
      SplitNoSep(parts[0], c);
    } else {
      SplitJoin(parts[1..], c);
      SplitCons(parts[0], Join(parts[1..], c), c);
    }
  }

  /** A joined string starts with the first character of its first piece. */
  lemma JoinHead(parts: seq<string>, c: char)
    requires parts != [] && parts[0] != ""
    ensures |Join(parts, c)| > 0 && Join(parts, c)[0] == parts[0][0]
  {
  }
}

=== FILE: vault.dfy ===
/** The secret vault (services/vault_service.py): an in-memory map from
    (user, prefab, secret name) to the secret's value, with upsert on store
    and hard removal on delete. */
module Vault {
  import opened Wrappers

  datatype SecretKey = SecretKey(user: string, prefab: string, name: string)

  type Store = map<SecretKey, string>

  /** `store_secret`: insert or overwrite. */
  function StoreSecret(s: Store, user: string, prefab: string, name: string, value: string): (r: Store)
    ensures r.Keys == s.Keys + {SecretKey(user, prefab, name)}
    ensures r[SecretKey(user, prefab, name)] == value
    ensures forall k :: k in s && k != SecretKey(user, prefab, name) ==> r[k] == s[k]
  {
    s[SecretKey(user, prefab, name) := value]
  }

  /** `get_secret`: the stored value, `None` when the key is absent.  A
      stored empty string is returned as it is. */
  function GetSecret(s: Store, user: string, prefab: string, name: string): (r: Option<string>)
    ensures r.None? <==> SecretKey(user, prefab, name) !in s
    ensures r.Some? ==> r.value == s[SecretKey(user, prefab, name)]
  {
    var k := SecretKey(user, prefab, name);
    if k in s then Some(s[k]) else None
  }

  /** `delete_secret`: removes the key and reports whether it was there. */
  function DeleteSecret(s: Store, user: string, prefab: string, name: string): (r: (Store, bool))
    ensures r.1 <==> SecretKey(user, prefab, name) in s
    ensures r.0.Keys == s.Keys - {SecretKey(user, prefab, name)}
    ensures forall k :: k in r.0 ==> r.0[k] == s[k]
  {
    var k := SecretKey(user, prefab, name);
    if k in s then (s - {k}, true) else (s, false)
  }

  /** `list_secrets`: the (prefab, name) pairs of the user's secrets,
      restricted to one prefab when a filter is given.  Values are never
      part of the answer. */
  function ListSecrets(s: Store, user: string, prefab: Option<string>): (r: set<(string, string)>)
    ensures forall p, n :: (p, n) in r <==>
      SecretKey(user, p, n) in s && (prefab.None? || prefab.value == p)
  {
    set k | k in s && k.user == user && (prefab.None? || prefab.value == k.prefab) :: (k.prefab, k.name)
  }

  /** Reading after storing gives exactly the stored value, whatever was
      there before; a store leaves every other secret readable as before. */
  lemma GetAfterStore(s: Store, user: string, prefab: string, name: string, value: string,
                      user': string, prefab': string, name': string)
    ensures GetSecret(StoreSecret(s, user, prefab, name, value), user, prefab, name) == Some(value)
    ensures (user', prefab', name') != (user, prefab, name) ==>
      GetSecret(StoreSecret(s, user, prefab, name, value), user', prefab', name') ==
      GetSecret(s, user', prefab', name')
  {
  }

  /** A second store overwrites the first. */
  lemma StoreOverwrites(s: Store, user: string, prefab: string, name: string, v1: string, v2: string)
    ensures StoreSecret(StoreSecret(s, user, prefab, name, v1), user, prefab, name, v2) ==
            StoreSecret(s, user, prefab, name, v2)
  {
  }

  /** After a delete the secret reads as absent, and deleting again reports
      that nothing was there. */
  lemma DeleteThenAbsent(s: Store, user: string, prefab: string, name: string)
    ensures var (after, _) := DeleteSecret(s, user, prefab, name);
            GetSecret(after, user, prefab, name).None? &&
            !DeleteSecret(after, user, prefab, name).1
  {
  }

  /** The listing depends on which secrets exist, never on their values. */
  lemma ListIgnoresValues(s1: Store, s2: Store, user: string, prefab: Option<string>)
    requires s1.Keys == s2.Keys
    ensures ListSecrets(s1, user, prefab) == ListSecrets(s2, user, prefab)
  {
    var l1 := ListSecrets(s1, user, prefab);
    var l2 := ListSecrets(s2, user, prefab);
    forall pn | pn in l1 ensures pn in l2 {
      assert SecretKey(user, pn.0, pn.1) in s2;
    }
    forall pn | pn in l2 ensures pn in l1 {
      assert SecretKey(user, pn.0, pn.1) in s1;
    }
  }
}

=== FILE: webhooks.dfy ===
/** Webhook ingestion (app/routers/webhooks.py): the factory's deployment
    notifications are recorded in the `webhook_events` table, keyed by
    event id, and handled at most once.  A processed event is answered
    `already_processed` on redelivery.  An event whose handling raised keeps
    `processed = false`, so a redelivery handles it again and counts one
    more retry. */
module Webhooks {
  import opened Wrappers
  import opened Json
  import Records

  newtype Byte = b: int | 0 <= b < 256

  /** The `webhook_events` table under its unique index. */
  type Events = map<string, Records.WebhookEvent>

  /** `hmac.new(key, body, sha256).hexdigest()`, supplied by the caller. */
  type Hmac = (string, seq<Byte>) -> string

  /** A string `compare_digest` accepts: ASCII characters only. */
  predicate IsAscii(s: string) {
    forall i :: 0 <= i < |s| ==> s[i] as int < 128
  }

  /** `verify_signature`: an empty signature never verifies.  Any other one
      is compared with the HMAC of the body under the secret by
      `compare_digest`, an equality test taking constant time that raises a
      `TypeError` (here `None`) when either string has a non-ASCII
      character, as a header byte above 0x7f decodes to. */
  function VerifySignature(body: seq<Byte>, signature: string, secret: string, hmac: Hmac): (ok: Option<bool>)
    ensures signature == "" ==> ok == Some(false)
    ensures signature != "" && IsAscii(signature) && IsAscii(hmac(secret, body)) ==>
              ok == Some(signature == hmac(secret, body))
    ensures ok.None? <==> signature != "" && !(IsAscii(signature) && IsAscii(hmac(secret, body)))
  {
    if signature == "" then Some(false)
    else
      var expected := hmac(secret, body);
      if !IsAscii(signature) || !IsAscii(expected) then None
      else Some(signature == expected)
  }

  /** The message of `compare_digest`'s `TypeError`. */
  const NonAsciiDigest: string := "comparing strings with non-ASCII characters is not supported"

  /** The four fields that identify an event. */
  datatype Ids = Ids(eventId: string, eventType: string, prefabId: string, version: string)

  /** The status change a deployment event asks for: `serviceUrl` is the
      `knative_service_url` argument, passed only for a success. */
  datatype StatusUpdate = StatusUpdate(
    prefabId: string,
    version: string,
    status: Records.DeploymentStatus,
    serviceUrl: Option<Json>)

  /** What `update_deployment_status` did: returned its flag, or raised. */
  datatype UpdateOutcome = Updated(success: bool) | UpdateRaised(message: string)

  type Updater = StatusUpdate -> UpdateOutcome

  datatype WebhookError =
    | InvalidSignature
    | InvalidJson
    | MissingFields
    | InternalError(message: string)
    | ProcessingFailed(message: string)
  {
    function StatusCode(): int {
      match this
      case InvalidSignature => 401
      case InvalidJson => 400
      case MissingFields => 400
      case InternalError(_) => 500
      case ProcessingFailed(_) => 500
    }
  }

  /** The `status` of the JSON answer. */
  datatype Ack =
    | AlreadyProcessed(eventId: string)
    | Processed(eventId: string, eventType: string, prefabId: string, version: string)

  /** `payload.get(key)`. */
  function FieldOf(payload: map<string, Json>, key: string): Json {
    if key in payload then payload[key] else JNull
  }

  const IdFields: set<string> := {"event_id", "event_type", "prefab_id", "version"}

  /** The field extraction and the `all([...])` check.  A body that decodes
      to something other than an object has no `get` and fails with an
      internal error; a falsy or absent identifying field is a 400.  The
      table stores these fields as strings, so a truthy value of another
      type is refused by the database, again an internal error. */
  function ExtractIds(payload: Json): (r: Result<Ids, WebhookError>)
    ensures !payload.JObject? ==> r.Err? && r.error.InternalError?
    ensures payload.JObject? ==>
              (r == Err(MissingFields) <==> exists k :: k in IdFields && !Truthy(FieldOf(payload.fields, k)))
    ensures r.Ok? ==>
              payload.JObject? &&
              FieldOf(payload.fields, "event_id") == JStr(r.value.eventId) && r.value.eventId != "" &&
              FieldOf(payload.fields, "event_type") == JStr(r.value.eventType) && r.value.eventType != "" &&
              FieldOf(payload.fields, "prefab_id") == JStr(r.value.prefabId) && r.value.prefabId != "" &&
              FieldOf(payload.fields, "version") == JStr(r.value.version) && r.value.version != ""
  {
    if !payload.JObject? then Err(InternalError("'" + TypeName(payload) + "' object has no attribute 'get'"))
    else
      var m := payload.fields;
      var id, ty, p, v := FieldOf(m, "event_id"), FieldOf(m, "event_type"), FieldOf(m, "prefab_id"), FieldOf(m, "version");
      if !(Truthy(id) && Truthy(ty) && Truthy(p) && Truthy(v)) then Err(MissingFields)
      else if !(id.JStr? && ty.JStr? && p.JStr? && v.JStr?) then Err(InternalError("identifying field is not a string"))
      else Ok(Ids(id.s, ty.s, p.s, v.s))
  }

  /** The `if/elif` on the event type: the three deployment events ask for
      a status change of the event's (prefab, version); any other type asks
      for none. */
  function UpdateFor(ids: Ids, payload: map<string, Json>): (u: Option<StatusUpdate>)
    ensures u.Some? <==> ids.eventType in {"deployment.success", "deployment.failed", "deployment.started"}
    ensures u.Some? ==> u.value.prefabId == ids.prefabId && u.value.version == ids.version
    ensures u.Some? ==> u.value.status in {Records.Deployed, Records.Failed, Records.Deploying}
    ensures u.Some? ==> (u.value.serviceUrl.Some? <==> u.value.status == Records.Deployed)
    ensures u.Some? && u.value.serviceUrl.Some? ==> u.value.serviceUrl.value == FieldOf(payload, "knative_service_url")
  {
    if ids.eventType == "deployment.success" then
      Some(StatusUpdate(ids.prefabId, ids.version, Records.Deployed, Some(FieldOf(payload, "knative_service_url"))))
    else if ids.eventType == "deployment.failed" then
      Some(StatusUpdate(ids.prefabId, ids.version, Records.Failed, None))
    else if ids.eventType == "deployment.started" then
      Some(StatusUpdate(ids.prefabId, ids.version, Records.Deploying, None))
    else None
  }

  /** The exception message when the status update raised; `None` when it
      returned, whatever flag it returned, or when no update was asked. */
  function UpdateError(ids: Ids, payload: map<string, Json>, update: Updater): Option<string> {
    match UpdateFor(ids, payload)
    case None => None
    case Some(u) =>
      match update(u)
      case UpdateRaised(message) => Some(message)
      case Updated(_) => None
  }

  /** Marking the event processed as the code does it: `processed_at` is set
      to null in the expectation that the database fills it in, but the
      column has no default, so it stays null. */
  function MarkProcessedAsWritten(e: Records.WebhookEvent): (r: Records.WebhookEvent)
    ensures r.processed && r.processedAt.None?
    ensures r.eventId == e.eventId && r.retryCount == e.retryCount && r.processingError == e.processingError
  {
    e.(processed := true, processedAt := None)
  }

  /** Marking the event processed with its processing time. */
  function MarkProcessed(e: Records.WebhookEvent, now: int): (r: Records.WebhookEvent)
    ensures r.processed && r.processedAt == Some(now)
    ensures r.eventId == e.eventId && r.retryCount == e.retryCount && r.processingError == e.processingError
    ensures r.payload == e.payload && r.source == e.source && r.createdAt == e.createdAt
  {
    e.(processed := true, processedAt := Some(now))
  }

  /** How a handled event is marked processed: as the code does it, or
      with its processing time. */
  datatype Marking = AsWritten | WithTime

  function Mark(e: Records.WebhookEvent, now: int, marking: Marking): (r: Records.WebhookEvent)
    ensures r.processed && r.eventId == e.eventId
    ensures marking == AsWritten ==> r == MarkProcessedAsWritten(e)
    ensures marking == WithTime ==> r == MarkProcessed(e, now)
  {
    match marking
    case AsWritten => MarkProcessedAsWritten(e)
    case WithTime => MarkProcessed(e, now)
  }

  /** The `except` branch: the error is recorded and one more retry counted;
      the event stays unprocessed. */
  function RecordFailure(e: Records.WebhookEvent, message: string): (r: Records.WebhookEvent)
    ensures !r.processed <==> !e.processed
    ensures r.retryCount == e.retryCount + 1 && r.processingError == Some(message)
    ensures r.eventId == e.eventId && r.processedAt == e.processedAt
  {
    e.(processingError := Some(message), retryCount := e.retryCount + 1)
  }

  /** The row of a first receipt. */
  function FirstRow(ids: Ids, payload: map<string, Json>, signature: Option<string>, now: int): Records.WebhookEvent {
    Records.NewWebhookEvent(ids.eventId, "factory", ids.eventType, ids.prefabId, ids.version,
                            payload, signature, now)
  }

  /** Handles a stored, unprocessed event. */
  function Process(events: Events, ids: Ids, payload: map<string, Json>, update: Updater, now: int,
                   marking: Marking)
    : (r: (Events, Result<Ack, WebhookError>))
    requires ids.eventId in events
    ensures r.0.Keys == events.Keys
    ensures forall k :: k in events && k != ids.eventId ==> r.0[k] == events[k]
    ensures r.0[ids.eventId].eventId == events[ids.eventId].eventId
    ensures Records.KeyedBy(events, Records.EventKeyOf) ==> Records.KeyedBy(r.0, Records.EventKeyOf)
    ensures r.1.Ok? <==> UpdateError(ids, payload, update).None?
    ensures r.1.Ok? ==> r.1.value == Processed(ids.eventId, ids.eventType, ids.prefabId, ids.version) &&
                        r.0[ids.eventId] == Mark(events[ids.eventId], now, marking)
    ensures r.1.Err? ==> r.1 == Err(ProcessingFailed(UpdateError(ids, payload, update).value)) &&
                         r.0[ids.eventId] == RecordFailure(events[ids.eventId], UpdateError(ids, payload, update).value)
  {
    var rec := events[ids.eventId];
    match UpdateError(ids, payload, update)
    case Some(message) => (events[ids.eventId := RecordFailure(rec, message)], Err(ProcessingFailed(message)))
    case None =>
      (events[ids.eventId := Mark(rec, now, marking)], Ok(Processed(ids.eventId, ids.eventType, ids.prefabId, ids.version)))
  }

  /** The signature check of `receive_factory_webhook`: skipped when no
      secret is configured (unset or empty); otherwise an unequal signature
      is a 401 and a `compare_digest` `TypeError` an internal error. */
  function SignatureError(body: seq<Byte>, signature: Option<string>, secret: Option<string>, hmac: Hmac)
    : (r: Option<WebhookError>)
    ensures r == Some(InvalidSignature) <==>
              secret.Some? && secret.value != "" &&
              VerifySignature(body, signature.GetOr(""), secret.value, hmac) == Some(false)
    ensures r == Some(InternalError(NonAsciiDigest)) <==>
              secret.Some? && secret.value != "" &&
              VerifySignature(body, signature.GetOr(""), secret.value, hmac).None?
    ensures r.Some? ==> r == Some(InvalidSignature) || r == Some(InternalError(NonAsciiDigest))
  {
    if secret.None? || secret.value == "" then None
    else match VerifySignature(body, signature.GetOr(""), secret.value, hmac)
      case None => Some(InternalError(NonAsciiDigest))
      case Some(ok) => if ok then None else Some(InvalidSignature)
  }

  /** The table before processing: an event seen before is kept as it is,
      a new one is inserted from its first receipt. */
  function Stored(events: Events, ids: Ids, payload: map<string, Json>, signature: Option<string>, now: int)
    : (r: Events)
    ensures ids.eventId in r && r.Keys == events.Keys + {ids.eventId}
    ensures forall k :: k in events ==> r[k] == events[k]
    ensures ids.eventId !in events ==> r[ids.eventId] == FirstRow(ids, payload, signature, now)
    ensures Records.KeyedBy(events, Records.EventKeyOf) ==> Records.KeyedBy(r, Records.EventKeyOf)
  {
    if ids.eventId in events then events
    else Records.Insert(events, Records.EventKeyOf, FirstRow(ids, payload, signature, now)).value
  }

  /** The handling of a decoded payload: identification, the idempotency
      check, the first-receipt insert and the processing. */
  function Dispatch(events: Events, payload: Json, signature: Option<string>, update: Updater, now: int,
                    marking: Marking): (r: (Events, Result<Ack, WebhookError>))
    ensures ExtractIds(payload).Err? ==> r == (events, Err(ExtractIds(payload).error))
    ensures var ids := ExtractIds(payload);
            ids.Ok? && ids.value.eventId in events && events[ids.value.eventId].processed ==>
              r == (events, Ok(AlreadyProcessed(ids.value.eventId)))
    ensures r.1.Err? ==> !r.1.error.InvalidSignature? && !r.1.error.InvalidJson?
    ensures r.1.Err? && !r.1.error.ProcessingFailed? ==> r.0 == events
    ensures r.1.Ok? && r.1.value.AlreadyProcessed? ==> r.0 == events
    ensures events.Keys <= r.0.Keys
    ensures forall k :: k in events && events[k].processed ==> r.0[k] == events[k]
    ensures Records.KeyedBy(events, Records.EventKeyOf) ==> Records.KeyedBy(r.0, Records.EventKeyOf)
    ensures r.1.Ok? && r.1.value.Processed? ==>
              r.1.value.eventId in r.0 && r.0[r.1.value.eventId].processed &&
              r.0[r.1.value.eventId].processedAt == (if marking == WithTime then Some(now) else None)
  {
    match ExtractIds(payload)
    case Err(e) => (events, Err(e))
    case Ok(ids) =>
      if ids.eventId in events && events[ids.eventId].processed then
        (events, Ok(AlreadyProcessed(ids.eventId)))
      else
        var stored := Stored(events, ids, payload.fields, signature, now);
        Process(stored, ids, payload.fields, update, now, marking)
  }

  /** `receive_factory_webhook`, with the processed event marked by
      `marking`.  `secret` is the configured webhook secret, `signature` the
      `X-Webhook-Signature` header, `parse` the JSON decoder and `update`
      the deployment-status update. */
  function Handle(events: Events, body: seq<Byte>, signature: Option<string>, secret: Option<string>,
                  hmac: Hmac, parse: seq<Byte> -> Option<Json>, update: Updater, now: int, marking: Marking)
    : (r: (Events, Result<Ack, WebhookError>))
    ensures r.1 == Err(InvalidSignature) <==>
              secret.Some? && secret.value != "" &&
              VerifySignature(body, signature.GetOr(""), secret.value, hmac) == Some(false)
    ensures secret.Some? && secret.value != "" &&
            VerifySignature(body, signature.GetOr(""), secret.value, hmac).None? ==>
              r == (events, Err(InternalError(NonAsciiDigest)))
    ensures SignatureError(body, signature, secret, hmac).None? && parse(body).None? ==>
              r == (events, Err(InvalidJson))
    ensures SignatureError(body, signature, secret, hmac).None? && parse(body).Some? ==>
              r == Dispatch(events, parse(body).value, signature, update, now, marking)
    ensures r.1.Err? && !r.1.error.ProcessingFailed? ==> r.0 == events
    ensures r.1.Ok? && r.1.value.AlreadyProcessed? ==> r.0 == events
    ensures events.Keys <= r.0.Keys
    ensures forall k :: k in events && events[k].processed ==> r.0[k] == events[k]
    ensures Records.KeyedBy(events, Records.EventKeyOf) ==> Records.KeyedBy(r.0, Records.EventKeyOf)
    ensures r.1.Ok? && r.1.value.Processed? ==>
              r.1.value.eventId in r.0 && r.0[r.1.value.eventId].processed &&
              r.0[r.1.value.eventId].processedAt == (if marking == WithTime then Some(now) else None)
  {
    match SignatureError(body, signature, secret, hmac)
    case Some(e) => (events, Err(e))
    case None =>
      match parse(body)
      case None => (events, Err(InvalidJson))
      case Some(payload) => Dispatch(events, payload, signature, update, now, marking)
  }

  /** `receive_factory_webhook` as written: an event it handles is answered
      "processed" and stored as processed, but with no processing time. */
  function Receive(events: Events, body: seq<Byte>, signature: Option<string>, secret: Option<string>,
                   hmac: Hmac, parse: seq<Byte> -> Option<Json>, update: Updater, now: int)
    : (r: (Events, Result<Ack, WebhookError>))
    ensures r.1.Ok? && r.1.value.Processed? ==>
              r.1.value.eventId in r.0 && r.0[r.1.value.eventId].processed &&
              r.0[r.1.value.eventId].processedAt.None?
    ensures r.1 == Err(InvalidSignature) <==>
              secret.Some? && secret.value != "" &&
              VerifySignature(body, signature.GetOr(""), secret.value, hmac) == Some(false)
    ensures SignatureError(body, signature, secret, hmac).None? && parse(body).None? ==>
              r == (events, Err(InvalidJson))
    ensures SignatureError(body, signature, secret, hmac).None? && parse(body).Some? &&
            ExtractIds(parse(body).value).Err? ==>
              r == (events, Err(ExtractIds(parse(body).value).error))
    ensures r.1.Err? && !r.1.error.ProcessingFailed? ==> r.0 == events
  {
    Handle(events, body, signature, secret, hmac, parse, update, now, AsWritten)
  }

  /** The handler with the processing time recorded when an event is
      marked processed. */
  function ReceiveIntended(events: Events, body: seq<Byte>, signature: Option<string>, secret: Option<string>,
                           hmac: Hmac, parse: seq<Byte> -> Option<Json>, update: Updater, now: int)
    : (r: (Events, Result<Ack, WebhookError>))
    ensures r.1.Ok? && r.1.value.Processed? ==>
              r.1.value.eventId in r.0 && r.0[r.1.value.eventId].processed &&
              r.0[r.1.value.eventId].processedAt == Some(now)
    ensures r.1.Err? ==> r == Receive(events, body, signature, secret, hmac, parse, update, now)
  {
    Handle(events, body, signature, secret, hmac, parse, update, now, WithTime)
  }

  /** A first receipt stores the event under its id, from source "factory",
      with the whole payload and the signature header; the row is processed
      exactly when the status update did not raise, and otherwise carries
      the error and one retry. */
  lemma FirstReceipt(events: Events, body: seq<Byte>, signature: Option<string>, secret: Option<string>,
                     hmac: Hmac, parse: seq<Byte> -> Option<Json>, update: Updater, now: int,
                     m: map<string, Json>, ids: Ids)
    requires secret.None?
    requires parse(body) == Some(JObject(m)) && ExtractIds(JObject(m)) == Ok(ids)
    requires ids.eventId !in events
    ensures var (after, res) := Receive(events, body, signature, secret, hmac, parse, update, now);
            after.Keys == events.Keys + {ids.eventId} &&
            var row := after[ids.eventId];
            row.source == "factory" && row.payload == m && row.signature == signature &&
            row.eventType == ids.eventType && row.prefabId == ids.prefabId && row.version == ids.version &&
            (row.processed <==> res.Ok?) &&
            (res.Ok? ==> row.retryCount == 0 && row.processingError.None?) &&
            (res.Err? ==> row.retryCount == 1 && row.processingError.Some?)
  {
  }

  /** Redelivering an event that was processed is answered
      `already_processed` and changes nothing, whatever the update would do
      this time. */
  lemma RedeliveryIsIdempotent(events: Events, body: seq<Byte>, signature: Option<string>, secret: Option<string>,
                               hmac: Hmac, parse: seq<Byte> -> Option<Json>, u1: Updater, u2: Updater,
                               now1: int, now2: int)
    requires Receive(events, body, signature, secret, hmac, parse, u1, now1).1.Ok?
    ensures var (after, first) := Receive(events, body, signature, secret, hmac, parse, u1, now1);
            Receive(after, body, signature, secret, hmac, parse, u2, now2) ==
            (after, Ok(AlreadyProcessed(first.value.eventId)))
  {
  }

  /** A failed handling is retried by a redelivery: the update is asked
      again, and when it raises again the retry count goes up once more. */
  lemma FailureIsRetried(events: Events, body: seq<Byte>, signature: Option<string>, secret: Option<string>,
                         hmac: Hmac, parse: seq<Byte> -> Option<Json>, update: Updater, now1: int, now2: int,
                         m: map<string, Json>, ids: Ids)
    requires parse(body) == Some(JObject(m)) && ExtractIds(JObject(m)) == Ok(ids)
    requires Receive(events, body, signature, secret, hmac, parse, update, now1).1.Err?
    requires Receive(events, body, signature, secret, hmac, parse, update, now1).1.error.ProcessingFailed?
    ensures var (after, _) := Receive(events, body, signature, secret, hmac, parse, update, now1);
            var (again, res) := Receive(after, body, signature, secret, hmac, parse, update, now2);
            ids.eventId in after && !after[ids.eventId].processed &&
            res.Err? && res.error.ProcessingFailed? &&
            again[ids.eventId].retryCount == after[ids.eventId].retryCount + 1
  {
  }

  /** The status update as shipped: the spec cache service has no
      `update_deployment_status`, so looking it up raises. */
  function ShippedUpdate(u: StatusUpdate): (r: UpdateOutcome)
    ensures r.UpdateRaised?
  {
    UpdateRaised("'SpecCacheService' object has no attribute 'update_deployment_status'")
  }

  /** With the shipped service, no deployment event is ever processed: each
      delivery answers 500 and adds a retry, for ever. */
  lemma ShippedDeploymentEventsNeverProcess(events: Events, body: seq<Byte>, signature: Option<string>,
                                            secret: Option<string>, hmac: Hmac, parse: seq<Byte> -> Option<Json>,
                                            now: int, m: map<string, Json>, ids: Ids)
    requires secret.None?
    requires parse(body) == Some(JObject(m)) && ExtractIds(JObject(m)) == Ok(ids)
    requires ids.eventType == "deployment.success"
    requires ids.eventId !in events || !events[ids.eventId].processed
    ensures var (after, res) := Receive(events, body, signature, secret, hmac, parse, ShippedUpdate, now);
            res.Err? && res.error.StatusCode() == 500 && !after[ids.eventId].processed
  {
  }

  /** With a status update that returns, every delivery of a new or
      unprocessed event is processed: for a deployment event the update is
      asked with the mapped status, and an unknown type or a `False` answer
      still marks the event processed (with no processing time, as the
      marking is written). */
  lemma WorkingUpdateProcesses(events: Events, body: seq<Byte>, signature: Option<string>,
                               secret: Option<string>, hmac: Hmac, parse: seq<Byte> -> Option<Json>,
                               update: Updater, now: int, m: map<string, Json>, ids: Ids)
    requires secret.None?
    requires parse(body) == Some(JObject(m)) && ExtractIds(JObject(m)) == Ok(ids)
    requires forall u :: update(u).Updated?
    requires ids.eventId !in events || !events[ids.eventId].processed
    ensures var (after, res) := Receive(events, body, signature, secret, hmac, parse, update, now);
            res == Ok(Processed(ids.eventId, ids.eventType, ids.prefabId, ids.version)) &&
            after[ids.eventId].processed && after[ids.eventId].processedAt.None?
  {
    assert UpdateError(ids, m, update).None? by {
      if UpdateFor(ids, m).Some? {
        assert update(UpdateFor(ids, m).value).Updated?;
      }
    }
  }

  /** The answer of `get_webhook_event`: the record's identity and
      processing state. */
  datatype EventView = EventView(
    eventId: string,
    source: string,
    eventType: string,
    prefabId: string,
    version: string,
    processed: bool,
    processedAt: Option<int>,
    retryCount: nat,
    processingError: Option<string>,
    createdAt: int)

  /** `get_webhook_event`: 404 for an unknown id, otherwise the stored
      record's identifying and processing fields. */
  function GetWebhookEvent(events: Events, eventId: string): (r: Result<EventView, int>)
    ensures r.Err? <==> eventId !in events
    ensures r.Err? ==> r.error == 404
    ensures r.Ok? ==> var e := events[eventId];
              r.value.processed == e.processed && r.value.processedAt == e.processedAt &&
              r.value.retryCount == e.retryCount && r.value.processingError == e.processingError &&
              r.value.eventId == e.eventId && r.value.eventType == e.eventType &&
              r.value.source == e.source && r.value.prefabId == e.prefabId &&
              r.value.version == e.version && r.value.createdAt == e.createdAt
  {
    if eventId !in events then Err(404)
    else
      var e := events[eventId];
      Ok(EventView(e.eventId, e.source, e.eventType, e.prefabId, e.version, e.processed,
                   e.processedAt, e.retryCount, e.processingError, e.createdAt))
  }

  /** As written, a processed event reports no processing time: the query
      after a delivery that was processed answers `processed: true` with
      `processed_at: null`. */
  lemma ProcessedAtStaysNull(events: Events, body: seq<Byte>, signature: Option<string>, secret: Option<string>,
                             hmac: Hmac, parse: seq<Byte> -> Option<Json>, update: Updater, now: int)
    requires Receive(events, body, signature, secret, hmac, parse, update, now).1.Ok?
    requires Receive(events, body, signature, secret, hmac, parse, update, now).1.value.Processed?
    ensures var (after, res) := Receive(events, body, signature, secret, hmac, parse, update, now);
            var view := GetWebhookEvent(after, res.value.eventId);
            view.Ok? && view.value.processed && view.value.processedAt.None?
  {
  }

  /** With the processing time recorded, the query reports when a processed
      event was processed. */
  lemma ProcessedAtReported(events: Events, body: seq<Byte>, signature: Option<string>, secret: Option<string>,
                            hmac: Hmac, parse: seq<Byte> -> Option<Json>, update: Updater, now: int)
    requires ReceiveIntended(events, body, signature, secret, hmac, parse, update, now).1.Ok?
    requires ReceiveIntended(events, body, signature, secret, hmac, parse, update, now).1.value.Processed?
    ensures var (after, res) := ReceiveIntended(events, body, signature, secret, hmac, parse, update, now);
            var view := GetWebhookEvent(after, res.value.eventId);
            view.Ok? && view.value.processed && view.value.processedAt == Some(now)
  {
  }
}

=== FILE: wrappers.dfy ===
/** Optional values and success/failure results, the two shapes every
    service of the gateway returns: `None` where the source returns Python's
    `None`, `Err` where it raises. */
module Wrappers {

  datatype Option<+T> = None | Some(value: T) {

    /** The value, or `default` when there is none (Python's `x or default`
        for a value that may be missing). */
    function GetOr(default: T): T {
      match this
      case Some(v) => v
      case None => default
    }
  }

  datatype Result<+T, +E> = Ok(value: T) | Err(error: E) {

    predicate IsFailure() {
      Err?
    }

    function PropagateFailure<U>(): Result<U, E>
      requires Err?
    {
      Err(error)
    }

    function Extract(): T
      requires Ok?
    {
      value
    }
  }
}
